=== FILE: README.md ===
# Sentrinet recurring-scan scheduler, in Dafny

Sentrinet probes TCP port ranges on a target host and records which ports are
open. This project models four parts of its Go backend:

- the recurring-job scheduler (`scheduler.Manager`, its `jobRunner`s, and
  how a sweep is persisted);
- the port probe engine (`scan.ScanPort`, `scan.ScanRange`);
- the validation and id parsing the HTTP handlers do before calling the
  scheduler;
- limit/offset normalisation in the paginated listings `GET /api/jobs` and
  `GET /api/scans`.

## How the model is built

The model is built from immutable datatypes and pure functions. It is split
into these modules:

- `Errors`: store outcomes and manager errors.
- `GoInt`: `int64` wrap-around, Go's truncated division, and `time.Duration`.
- `Strconv`: `strconv.ParseInt` / `Atoi`, and `FormatInt`.
- `Scanner`: the probe engine.
- `JobStore`: the `jobs` and `scans` tables.
- `Persist`: how one sweep is written.
- `Scheduler`: the manager's operations and the runner's steps.
- `System`: every operation and runner step as an event of one transition
  system, and the invariant that holds over any interleaving.
- `SchedulerProps`: properties that relate several manager calls.
- `Scenarios`: concrete runs.
- `Paging`: `handlers/jobs.go` and `handlers/scans.go`.
- `Api`: `api/handler.go`.

Several things are parameters rather than computations:

- **Store answers.** Every store call takes a `DbOutcome` parameter, and each
  failure path is stated for that parameter.
- **The network.** It is a `Scanner.Probe` oracle that gives each port's dial
  outcome and elapsed time.
- **Goroutine scheduling.** Each receive of the fan-in picks which finished
  probe arrives next.

A runner outlives its registry entry. `StopJob` unregisters a runner at once,
but that runner's goroutine and any sweep it has in flight carry on. So runners
are kept in an append-only sequence, and the registry maps a job id to an
index into it. Each runner step is its own event, and those events interleave
freely with the manager's calls:

- the initial `executeOnce`;
- a tick;
- the end of a sweep;
- the loop's exit on cancellation.

### Behaviours worth knowing

Some of the code's behaviour is easy to miss when reading it. The model
follows the code and proves each behaviour below.

- **Single-flight is per runner instance, not per job id.** The guard is the
  runner's own `running` flag. Stopping a job and starting it again while its
  sweep is in flight gives a new runner, and that runner's initial sweep starts
  at once. One job id then has two sweeps in flight (`Scenarios.TwoSweepsForOneJob`).
  What does hold, over every interleaving, is at most one sweep per runner
  (`System.RunKeepsInv`).
- **`StopAll` does not wait for every goroutine.** Its `wg.Wait()` counts
  runner loops only. A sweep started by a tick runs in a goroutine of its own
  and can still be running after the wait returns
  (`Scenarios.WaitReturnsWithSweepInFlight`).
- **`StopAll` keeps the registry.** Afterwards, `LoadAndStartAll` starts
  nothing for a row that is still registered (`Scenarios.StopAllLeavesRegistry`).
- **`StartJobByID` alone cannot heal a row left active with no runner.** This
  state arises from a `StopJob` whose update fails. `StartJobByID` answers
  "job already active" for that row. A successful `StopJob` followed by
  `StartJobByID` starts it again, and so does `LoadAndStartAll`
  (`Scenarios.ActiveRowWithoutRunner`).
- **Ports are not range-checked.** The only checks are the handler's: the
  ports must be positive. A port above 65535 is accepted
  (`Api.PortsAreNotBounded`). So is a reversed range, which is stored as
  sent, and every sweep of it is empty (`Api.ReversedRangeAccepted`).

## Model

| member | source | states |
|---|---|---|
| `Scanner.ScanPort` | backend/internal/scan/scanner.go:15-35 | The result carries the probed port. The port is open exactly when the dial succeeded: a dial error means "closed" and is never an error. The duration is the time elapsed. |
| `Scanner.LookupIsAdvisory` | backend/internal/scan/scanner.go:19-24 | Whether the host lookup succeeds has no effect on a probe's result; it is only logged. |
| `Scanner.Launch` | backend/internal/scan/scanner.go:41-45 | One probe is launched per port of the inclusive range; the number of probes is the range's width. |
| `Scanner.FanIn` | backend/internal/scan/scanner.go:47-50 | Receiving one result per launched probe, in any arrival order, yields a permutation of the launched results. |
| `Scanner.ScanRange` | backend/internal/scan/scanner.go:37-53 | The results are a permutation of the per-port probes. |
| `Scanner.ScanRangeIsPermutationOfRange` | backend/internal/scan/scanner.go:37-53 | There is exactly one result per port of `start..end`, so there are `end-start+1` results. A reversed range gives none. Each result's open flag is that port's dial outcome. No port appears twice. |
| `Scanner.ArrivalOrderNotPortOrder` | backend/internal/scan/scanner.go:47-50 | Results come back in arrival order: a scheduling exists under which ports 1..2 arrive as 2, 1. |
| `Scanner.DistinctPortsCountAtMostOne` | backend/internal/scan/scanner.go:41-45 | When all ports are distinct, each result occurs at most once in the multiset. |
| `Scanner.PermutationKeepsDistinct` | backend/internal/scan/scanner.go:47-50 | Reordering results keeps their ports distinct. |
| `JobStore.SetActive` | backend/internal/scheduler/manager.go:226 | `UPDATE jobs SET active` changes only that id's flag. A missing id is a no-op, not an error. |
| `JobStore.DeleteRow` | backend/internal/scheduler/manager.go:249 | `DELETE FROM jobs WHERE id` removes exactly that id and keeps every other row. |
| `JobStore.Record` | backend/internal/scheduler/manager.go:177-184 | The row written for a probe result carries the job's target and the result's port, open flag and duration. |
| `Persist.InsertEach` | backend/internal/scheduler/manager.go:176-188 | One insert per result never writes more rows than there are results. When every insert succeeds, every result is written, in order. |
| `Persist.InsertEachKeepsSucceeded` | backend/internal/scheduler/manager.go:192-204 | A failed insert does not block the others: every result whose insert succeeded is written. |
| `Persist.InsertEachOnlySucceeded` | backend/internal/scheduler/manager.go:192-204 | Every written row comes from some result whose insert succeeded. |
| `Persist.SaveSweep` | backend/internal/scheduler/manager.go:174-211 | If the transaction cannot be opened, the fallback writes each row separately and the begin error is returned. A failed commit persists nothing and returns the commit error. Otherwise the inserts are persisted and nothing is returned. Rows already in `scans` are never lost. |
| `Persist.RowFailuresAreNeverReturned` | backend/internal/scheduler/manager.go:185-187 | Per-row insert errors are only printed. The sweep's returned error depends only on the begin and the commit, and it is one of those two errors. |
| `Persist.NothingLostWithoutCommitFailure` | backend/internal/scheduler/manager.go:174-211 | When every insert succeeds, the whole sweep lands in `scans` if and only if the transaction did not open and then fail to commit. |
| `Scheduler.StartRunner` | backend/internal/scheduler/manager.go:102-116 | Starting succeeds exactly when the id has no registry entry. A refusal is "already running" and changes nothing. A success registers a new runner holding a snapshot of the row, and leaves the store and the other entries untouched. |
| `Scheduler.NewManager` | backend/internal/scheduler/manager.go:40-48 | A new manager has an empty registry, no runners, no sweeps in flight, and a live context. |
| `Scheduler.TickerStarts` | backend/internal/scheduler/manager.go:121 | A runner gets a ticker only when its row's seconds, converted to a `time.Duration` with wrap-around, give a positive period. Every interval from 1 to 9223372036 seconds gets one, and no interval of zero or a negative number of seconds that fits does. |
| `Scheduler.ExecuteOnce` | backend/internal/scheduler/manager.go:152-169 | If the flag is already held, this returns nil and starts no sweep. If the context is done, it fails with "cancelled before start" and starts no sweep. In both cases the goroutine moves on to its loop. Otherwise exactly one sweep starts, the flag is held for it, and the goroutine stays in that initial sweep rather than in its loop. |
| `Scheduler.Tick` | backend/internal/scheduler/manager.go:133-144 | A tick that finds the flag held is dropped, not queued, and changes nothing. Otherwise it takes the flag and starts exactly one sweep. |
| `Scheduler.SweepAndSave` | backend/internal/scheduler/manager.go:171-212 | A sweep only appends to `scans`, at most one row per port of the snapshot's range: no two added rows share a port. Every added row is for the snapshot's target and a port inside its range. When every insert is accepted and the transaction either commits or never opened, every port of the range gets its row. |
| `Scheduler.SweepRowsComeFromRange` | backend/internal/scheduler/manager.go:173-204 | Every row a sweep adds is for the job's target and a port inside its range. |
| `Scheduler.SweepRowsDistinct` | backend/internal/scheduler/manager.go:176-204 | A sweep's rows are for distinct ports, because the scan returns one result per port and each insert writes at most its own result. |
| `Scheduler.SweepRowsCoverRange` | backend/internal/scheduler/manager.go:176-204 | With every insert accepted and no failed commit, a sweep adds exactly one row for each port of the range. |
| `Persist.InsertEachKeepsDistinct` | backend/internal/scheduler/manager.go:176-188 | Results for distinct ports are written as rows for distinct ports, whichever inserts fail. |
| `Persist.SaveSweepKeepsDistinct` | backend/internal/scheduler/manager.go:174-211 | On every path of the writer, the rows added for results with distinct ports have distinct ports. |
| `Scheduler.FinishSweep` | backend/internal/scheduler/manager.go:139-143 | The end of a sweep releases the runner's flag and removes exactly that one sweep. It writes the snapshot's results and touches no other runner and neither the registry nor `jobs`. |
| `Scheduler.ExitLoop` | backend/internal/scheduler/manager.go:129-132 | A loop exits only once its context is done. Only that runner changes, and the store and in-flight sweeps stay as they are. |
| `Scheduler.StopAll` | backend/internal/scheduler/manager.go:261-267 | Every runner's context becomes done. The registry, the store and the sweeps in flight are kept; cancelling does not interrupt a sweep. |
| `Scheduler.LoopsExited` | backend/internal/scheduler/manager.go:268 | What `wg.Wait()` waits for: every runner loop has returned; sweeps started by ticks are not counted. |
| `Scheduler.StopJob` | backend/internal/scheduler/manager.go:214-228 | The id is always unregistered, and only its runner is cancelled. A missing runner is not an error. The row is set inactive whenever the update succeeds, and the update's outcome is the only error returned. |
| `Scheduler.StartJobByID` | backend/internal/scheduler/manager.go:230-245 | A read error, or a missing row, is returned unchanged. "Job already active" is returned exactly for an active row, with no write. Otherwise the row is set active before the runner starts, and the runner's refusal is the only other error. No other row, registry entry or existing runner changes, and neither `scans`, the sweeps in flight nor the manager's context do; at most one runner is added. |
| `Scheduler.DeleteJob` | backend/internal/scheduler/manager.go:247-251 | The stop's error is ignored, so only the delete's outcome is returned. The id is unregistered in every case, and only its own runner is cancelled. Every other row and registry entry is kept, as are `scans`, the sweeps in flight and the manager's context. A failed delete leaves the row as the stop left it. |
| `Scheduler.NewRow` | backend/internal/scheduler/manager.go:67-72 | The stored row keeps the request's fields. `active` becomes 1 or 0. The stored interval is the duration's whole seconds truncated toward zero: the largest number of whole seconds not above a non-negative duration, and the smallest not below a negative one. |
| `Scheduler.CreateJob` | backend/internal/scheduler/manager.go:67-100 | A failed insert returns its error and starts nothing. A successful insert returns the store's id. An active job also gets a runner for the new row; a refusal from starting that runner is only printed. Existing registry entries and runners are kept, at most one runner is added, and the manager's context is untouched. |
| `Scheduler.StartEach` | backend/internal/scheduler/manager.go:59-63 | Every selected id ends up registered, and ids already registered keep their runner. Exactly one new runner is started per id not yet registered, for one of its rows. The store is untouched. |
| `Scheduler.LoadAndStartAll` | backend/internal/scheduler/manager.go:50-65 | Only a failing select is an error, and `sql.ErrNoRows` counts as success. Per-row start failures are skipped. |
| `System.RunKeepsInv` | backend/internal/scheduler/manager.go:102-212 | Over any interleaving of public calls and runner steps: each runner has at most one sweep in flight, and its flag is 1 exactly while that sweep runs. Every registry entry points to a runner for that id, and that id's row is active. |
| `System.StepKeepsInv` | backend/internal/scheduler/manager.go:102-268 | Every single event (a public call or a runner step) keeps that invariant. |
| `System.StartRunnerKeepsInv` | backend/internal/scheduler/manager.go:102-116 | Starting a runner for an active row keeps the invariant. |
| `System.StopJobKeepsInv` | backend/internal/scheduler/manager.go:214-228 | Stopping keeps the invariant, including when the update fails. |
| `System.FinishSweepKeepsInv` | backend/internal/scheduler/manager.go:139-143 | Ending a sweep keeps the invariant. |
| `System.TickWhileInFlightIsSkipped` | backend/internal/scheduler/manager.go:134-137 | While a runner's sweep is in flight, a tick changes nothing. |
| `System.NoTickBeforeInitialSweepEnds` | backend/internal/scheduler/manager.go:119-126 | Once the initial run has started the first sweep, neither a tick nor the loop's exit can happen for that runner until the sweep ends; its end puts the runner in the loop. |
| `SchedulerProps.StartRunnerTwiceRefused` | backend/internal/scheduler/manager.go:106-108 | A second start of the same id is refused as "already running" and changes nothing. |
| `SchedulerProps.StopJobIdempotent` | backend/internal/scheduler/manager.go:214-228 | Stopping twice leaves the state the first stop left, and gives the same result. |
| `SchedulerProps.StartJobTwiceRefused` | backend/internal/scheduler/manager.go:235-237 | After a successful start, a second start is refused as "already active". |
| `SchedulerProps.StopThenStartRestarts` | backend/internal/scheduler/manager.go:214-245 | Stop followed by start registers a fresh runner holding the current row, marked active. |
| `SchedulerProps.StartEachRegisteredIsNoop` | backend/internal/scheduler/manager.go:59-63 | Starting rows whose ids are all registered changes nothing. |
| `SchedulerProps.LoadAndStartAllIdempotent` | backend/internal/scheduler/manager.go:50-65 | Loading the same rows a second time starts nothing new and succeeds. |
| `SchedulerProps.StartAfterStopAllNeverSweeps` | backend/internal/scheduler/manager.go:110 | A runner started after `StopAll` inherits the cancelled context. Its initial run fails with "cancelled before start" and sweeps nothing. |
| `SchedulerProps.SweepUsesSnapshot` | backend/internal/scheduler/manager.go:119-144 | A sweep writes the row as it was when the runner started, whatever `jobs` holds by then. |
| `Scenarios.TwoSweepsForOneJob` | backend/internal/scheduler/manager.go:214-245 | Stop and start during an in-flight sweep leaves two sweeps in flight for one job id. |
| `Scenarios.ActiveRowWithoutRunner` | backend/internal/scheduler/manager.go:219-245 | A failed stop update leaves an active row with no runner. `StartJobByID` alone then answers "already active". A successful stop followed by `StartJobByID` starts the job again, and so does `LoadAndStartAll`. |
| `Scenarios.StopAllLeavesRegistry` | backend/internal/scheduler/manager.go:261-268 | After `StopAll`, the registry is unchanged, and `LoadAndStartAll` of a registered row starts nothing yet succeeds. |
| `Scenarios.WaitReturnsWithSweepInFlight` | backend/internal/scheduler/manager.go:117-147 | Every runner loop can exit while a tick's sweep is still in flight. |
| `Scenarios.CreateRunsInitialSweep` | backend/internal/scheduler/manager.go:119-126 | Creating an active job sweeps it at once, before any tick. With every write accepted, that sweep leaves one row per port of 8000..8002. |
| `GoInt.Wrap64` | backend/internal/api/handler.go:177 | An `int64` result is the unique in-range value congruent to the exact result modulo 2^64. |
| `GoInt.DurationOfSeconds` | backend/internal/api/handler.go:177 | `time.Duration(secs) * time.Second` is exactly `secs` times 10^9 when that fits in an `int64`, and in every case agrees with it modulo 2^64. |
| `GoInt.WholeSeconds` | backend/internal/scheduler/manager.go:68 | `int(d.Seconds())` taken as truncation toward zero: for a non-negative duration, the largest number of whole seconds not above it; for a negative one, the smallest not below it. |
| `GoInt.IntervalRoundTrip` | backend/internal/api/handler.go:177 | Seconds converted to a `time.Duration` and back are unchanged, whenever the product fits in an `int64`. |
| `GoInt.MaxDurationSecondsIsTight` | backend/internal/api/handler.go:177 | 9223372036 is the largest whole number of seconds a `time.Duration` holds. |
| `Strconv.ParseInt` | backend/internal/api/handler.go:197 | The text parses exactly when it is an optional sign followed by one or more digits, and the value fits in `int64`. The result is that value. |
| `Strconv.ParseFormatRoundTrip` | backend/internal/api/handler.go:197 | An `int64` printed the way Go prints it parses back to itself. |
| `Strconv.ParseIntRejects` | backend/internal/api/handler.go:197-200 | The parser rejects empty text, a bare sign, trailing letters and a leading space. |
| `Paging.Param` | backend/internal/handlers/jobs.go:21-22 | An absent parameter and an empty one both give the default. |
| `Paging.Limit` | backend/internal/handlers/jobs.go:24-27 | A limit is always at least 1. Text that parses to a positive integer gives that integer, however it is spelled. Any other limit is the fallback. |
| `Paging.Offset` | backend/internal/handlers/jobs.go:28-31 | An offset is never negative. Text that parses to a non-negative integer gives that integer, however it is spelled. Anything else gives 0. |
| `Paging.Window` | backend/internal/handlers/jobs.go:34-35 | `LIMIT … OFFSET …` gives at most `limit` consecutive rows, starting right after the first `offset`. |
| `Paging.ListPage` | backend/internal/handlers/jobs.go:19-45 | A failed query gives 500 with only the error. A successful one gives 200 with the normalised limit and offset, and exactly that window of the listing. |
| `Paging.GetJobs` | backend/internal/handlers/jobs.go:19-45 | The reply is 200 exactly when the query succeeds, and then it echoes the normalised limit and offset with at most `limit` rows. A failed query gives 500 with an error body and no data. |
| `Paging.GetScans` | backend/internal/handlers/scans.go:10-47 | The same as `GetJobs`, for the `scans` listing. |
| `Paging.AbsentDefaults` | backend/internal/handlers/scans.go:12-13 | Absent or empty parameters give limit 10 and offset 0. |
| `Paging.PositiveLimitKept` | backend/internal/handlers/scans.go:15-18 | Any text that parses to a positive integer, and Go's own printing of it, gives that integer as the limit. |
| `Paging.OtherSpellingsKept` | backend/internal/handlers/scans.go:15-18 | `"+5"` and `"05"` both give limit 5, as `strconv.Atoi` reads them. |
| `Paging.BadLimitFallsBack` | backend/internal/handlers/jobs.go:24-27 | A non-numeric limit, or one that is not positive, becomes the fallback. |
| `Paging.NonNegativeOffsetKept` | backend/internal/handlers/scans.go:20-23 | Any text that parses to a non-negative integer, and Go's own printing of it, gives that integer as the offset. |
| `Paging.BadOffsetFallsBack` | backend/internal/handlers/scans.go:20-23 | A non-numeric or negative offset becomes 0. |
| `Paging.EchoIsFixpoint` | backend/internal/handlers/jobs.go:39-43 | Normalisation is idempotent: sending back the echoed limit and offset gives the same values again. |
| `Paging.AdjacentWindows` | backend/internal/handlers/scans.go:35-37 | Two adjacent windows together make one window as long as both. |
| `Paging.RowOnItsPage` | backend/internal/handlers/scans.go:35-37 | With a fixed limit, each row is found on the page at offset `(i / limit) * limit`. |
| `Paging.NextPageContinues` | backend/internal/handlers/scans.go:35-45 | Moving the echoed offset on by the echoed limit returns the rows right after the current page. |
| `Paging.EchoedPage` | backend/internal/handlers/jobs.go:24-43 | A request carrying a limit and an offset as Go prints them, with a positive limit and a non-negative offset, is answered with exactly that window and echoes both back. |
| `Api.CreateSchedule` | backend/internal/api/handler.go:171-183 | An undecodable body gets 400 and the manager is not called. So do an empty target, a non-positive port or a non-positive interval. A valid request gets 500 exactly when the insert fails, and otherwise 200 with the stored id. The stored row carries the request's target, ports, active flag and the interval converted to a `time.Duration`. An active job gets a runner. |
| `Api.ScheduleValid` | backend/internal/api/handler.go:174 | The only field checks: a non-empty target, positive start and end ports, and a positive interval. |
| `Api.ReplyOf` | backend/internal/api/handler.go:201-205 | A manager call's outcome gives 200 with the route's message exactly when it succeeded, and otherwise 500 with that error, whatever it is. |
| `Api.ReversedRangeAccepted` | backend/internal/api/handler.go:174-178 | A valid request with `start > end` is accepted and stored as sent. Every sweep of that job then probes nothing. |
| `Api.PortsAreNotBounded` | backend/internal/api/handler.go:174 | A port above 65535 passes the checks. |
| `Api.IntervalStoredAsSent` | backend/internal/api/handler.go:177-178 | An interval up to 9223372036 seconds is stored exactly as sent. |
| `Api.OversizedIntervalIsStoredNegative` | backend/internal/api/handler.go:174-178 | The interval 9223372037 passes the checks, but the row is stored with -9223372036 seconds, and the runner gets no valid ticker period. |
| `Api.CreateScheduleChecked` | backend/internal/api/handler.go:171-183 | With the interval bounded, every accepted request stores exactly the requested interval, along with the request's target, ports and active flag, and its runner's ticker period is positive. Everything else gets 400, with the manager untouched. |
| `Api.CheckedAgreesWhenIntervalFits` | backend/internal/api/handler.go:174-178 | The bounded handler answers exactly as the one as written on every interval that fits in a `time.Duration`. |
| `Api.StopSchedule` | backend/internal/api/handler.go:195-206 | An id that is not a decimal `int64` gets 400 "invalid id" before any manager call. A stop error gives 500 with that error. A successful stop gives 200 with the message "stopped". |
| `Api.StartSchedule` | backend/internal/api/handler.go:208-218 | An id that does not parse gets 400 "invalid id" before any manager call. A start error gives 500 with that error. A successful start gives 200 with the message "started". |
| `Api.DeleteSchedule` | backend/internal/api/handler.go:220-230 | An id that does not parse gets 400 "invalid id" before any manager call. A delete error gives 500 with that error. A successful delete gives 200 with the message "deleted". |
| `Api.PrintedIdReachesManager` | backend/internal/api/handler.go:197-230 | An id written as Go prints it reaches the manager unchanged, on all three routes. |
| `Api.AlreadyActiveIs500` | backend/internal/api/handler.go:214-216 | Starting an already-active job gets 500, not a 4xx, and changes nothing. |
| `Api.MalformedIdsRefused` | backend/internal/api/handler.go:197-200 | The ids `""`, `"12a"` and `"-"` get 400 "invalid id". |
| `Api.ListScans` | backend/internal/api/handler.go:66-101 | A failed select gives 500. Otherwise the reply holds the first `limit` matching rows. |
| `Api.ScansLimitDefaultsTo50` | backend/internal/api/handler.go:69-76 | An absent, empty, non-numeric or non-positive limit on `/scans` returns at most the 50 newest matching rows. |
| `Api.WithoutRemovesCount` | backend/internal/api/handler.go:147-153 | Deleting a target's rows removes exactly as many rows as that target has. |
| `Api.Without` | backend/internal/api/handler.go:147 | `DELETE FROM scans WHERE target = ?` keeps exactly the rows of other targets. |
| `Api.DeleteScans` | backend/internal/api/handler.go:141-155 | An absent or empty target gets 400 and deletes nothing. A failed delete gets 500 and deletes nothing. Otherwise no row of the target remains, every other row is kept, and the reply carries the number removed. |
| `Api.DeleteScansTwice` | backend/internal/api/handler.go:141-155 | Deleting a target a second time removes nothing and reports 0. |
| `Api.SweepRowsDeletedWithTarget` | backend/internal/api/handler.go:141-155 | Every row a sweep of a job adds is removed by `DELETE /scans` with that job's target. |

## Left out

- Goroutines, the mutex and the clock are not modelled as such. Each public
  operation is one atomic transition. The interleavings inside an operation
  are not modelled (for example, `StopJob` reading the registry and then
  deleting from it under two lock acquisitions).
- The ticker's timing is not modelled. A tick is an event that can fire at any
  time while the loop runs. A period that is not positive makes
  `time.NewTicker` panic; this is stated by `Scheduler.TickerStarts`, not
  modelled as a crash.
- GoInt.WholeSeconds: models `int(d.Seconds())` as exact truncation, leaving
  out float rounding. Go computes `float64(sec) + float64(nsec)/1e9`, and from
  2^33 whole seconds up a fraction close to one rounds up to the next second.
  For example, d = 8999999996999999488 ns gives 8999999997 in Go, and 8999999996
  here. A duration made from whole seconds has no fraction, so the two agree
  on every interval up to 9223372036 seconds (`GoInt.IntervalRoundTrip`). The
  gap is reachable only through a wrapped interval above that bound, such as
  `interval_seconds` 15817298833210768.
- Scheduler.NewRow: "never more than the duration" is a property of the
  truncation model. For the wrapped durations named above, Go stores one
  second more than the duration holds.
- The transaction semantics of the store are an assumption: a failed commit
  persists none of the transaction's inserts.
- The port loop's `port++` overflow at the maximum `int` is not modelled; the
  range is a mathematical interval.
- `ListJobs` is not modelled: it is a plain select with no decision logic.
  Neither is `created_at`: the store orders listings, and a listing is a
  parameter already in that order.
- Paging.GetJobs: the `data` field is the rows' sequence. JSON's `null`, which
  an empty result gives for `[]JobRow(nil)`, is not told apart from an empty
  array.
- Api.ListScans: the `WHERE user_id … AND target LIKE … AND is_open` filters are
  the store's. The rows they select are a parameter.
- Scheduler.CreateJob: the new id is a parameter standing for the store's
  answer. The code reads it with `id, _ := res.LastInsertId()` and ignores
  that call's error, which is not modelled; it assumes the call succeeds, as
  it does on SQLite.
- Paging.ScanRow: `userId` is taken as never NULL. Sweep rows are inserted
  without a `user_id`, and the listing scans that column into an `int64`. If
  the column is NULL for those rows, `GET /api/scans` fails on them, and the
  model cannot represent that. The table's schema is not part of this model.
- Api.DeleteScans: the reply's count assumes `RowsAffected` succeeds, as it
  does on SQLite. Its ignored error is not modelled.
- Error texts (`err.Error()`) are carried as error values, not strings.
- Not modelled: `POST /scan` (a one-off scan with per-row notifications),
  `/stats`, `DELETE /scans/:id`, authentication, the websocket broadcast,
  metrics, the notification handlers, and the database cleanup job. These are
  outside the scheduler and the validation paths modelled here.
- The older copy of the handlers under `internal/api` and `cmd/server` is not
  modelled; its schedule validation is the same as the modelled one.

## Findings

| source | as written | input that shows it | evidently intended | confidence | as-written member | corrected member |
|---|---|---|---|---|---|---|
| backend/internal/api/handler.go:174-178 | The only interval check is `> 0`. `time.Duration(req.IntervalSeconds) * time.Second` then wraps in `int64`, and `CreateJob` stores `int(interval.Seconds())` of the wrapped duration. The runner's `time.NewTicker` (backend/internal/scheduler/manager.go:121) panics on the resulting period, which is not positive. | `POST /schedules` with `interval_seconds` 9223372037 is accepted (200), and the row is stored with -9223372036 seconds | An interval too large for a `time.Duration` is refused with 400, so every stored interval is the one requested and every ticker period is positive | high (arithmetic proved; not executed) | `Api.OversizedIntervalIsStoredNegative` | `Api.CreateScheduleChecked` |

=== FILE: api.dfy ===
/**
 The HTTP handlers in front of the scheduler and the `scans` table: the
 field checks on `POST /schedules`, the id parsing on `/schedules/:id…`,
 the `limit` default of `GET /scans` and the target check of
 `DELETE /scans`.

 A handler takes the manager (or table) and the store's outcomes, and gives
 back the new state and the reply. A reply is a status code and the JSON
 body's one meaningful field.
 */
module Api {
  import opened GoInt
  import opened Strconv
  import opened Errors
  import opened JobStore
  import opened Scheduler
  import Scanner
  import Paging
  import Persist

  /** The JSON body of `POST /schedules` after decoding into Go `int`s. */
  datatype ScheduleRequest = ScheduleRequest(
    target: string,
    startPort: Int64,
    endPort: Int64,
    intervalSeconds: Int64,
    active: bool)

  datatype Body =
    | BadBody                           // {"error": <the decoder's message>}
    | ErrorText(text: string)           // {"error": text}
    | ErrorOf(cause: Error)             // {"error": err.Error()}
    | IdBody(id: int)                   // {"id": id}
    | MessageBody(text: string)         // {"message": text}
    | DeletedBody(count: nat, target: string)
    | ScanList(rows: seq<Paging.ScanRow>)

  datatype Reply = Reply(status: int, body: Body)

  const RequiredFields: string := "target, ports and interval seconds are required"
  const InvalidId: string := "invalid id"
  const TargetRequired: string := "target query parameter required"
  const DeleteFailed: string := "Failed to delete records"

  /** The only field checks on a schedule: a target, positive ports and a
      positive interval. Neither `start <= end` nor `end <= 65535` is checked. */
  predicate ScheduleValid(req: ScheduleRequest) {
    req.target != "" && req.startPort > 0 && req.endPort > 0 && req.intervalSeconds > 0
  }

  /** The reply for a manager call's outcome: 200 with `message`, or 500 with
      the error, whatever the error is. */
  function ReplyOf(st: Status, message: string): (r: Reply)
    ensures r.status == 200 <==> st.Ok?
    ensures r.status != 200 ==> r == Reply(500, ErrorOf(st.error))
    ensures st.Ok? ==> r == Reply(200, MessageBody(message))
  {
    if st.Ok? then Reply(200, MessageBody(message)) else Reply(500, ErrorOf(st.error))
  }

  // ---------------------------------------------------------------------
  // POST /schedules

  /** `POST /schedules`: a body that does not decode, or fails the field
      checks, is refused with 400 before the manager is called. Otherwise the
      interval is converted to a `time.Duration` and `CreateJob` is called; its
      error gives 500, its id gives 200. */
  function CreateSchedule(m: Manager, body: Option<ScheduleRequest>, insert: DbOutcome, newId: int)
    : (out: (Manager, Reply))
    ensures body.None? ==> out == (m, Reply(400, BadBody))
    ensures body.Some? && !ScheduleValid(body.value) ==> out == (m, Reply(400, ErrorText(RequiredFields)))
    ensures out.1.status == 400 <==> body.None? || !ScheduleValid(body.value)
    ensures body.Some? && ScheduleValid(body.value) ==>
      && (insert.DbFail? ==> out == (m, Reply(500, ErrorOf(Db(insert.err)))))
      && (insert.DbOk? ==> out.1 == Reply(200, IdBody(newId)) && newId in out.0.jobs)
    ensures body.Some? && ScheduleValid(body.value) && insert.DbOk? ==>
      && out.0.jobs[newId] == NewRow(newId, body.value.target, body.value.startPort, body.value.endPort,
                                     DurationOfSeconds(body.value.intervalSeconds), body.value.active)
      && (body.value.active && newId !in m.registry ==> newId in out.0.registry)
  {
    match body
    case None => (m, Reply(400, BadBody))
    case Some(req) =>
      if !ScheduleValid(req) then (m, Reply(400, ErrorText(RequiredFields)))
      else
        var created := CreateJob(m, req.target, req.startPort, req.endPort,
                                 DurationOfSeconds(req.intervalSeconds), req.active, insert, newId);
        match created.1
        case Failure(e) => (created.0, Reply(500, ErrorOf(e)))
        case Success(id) => (created.0, Reply(200, IdBody(id)))
  }

  /** A valid schedule with a reversed range is accepted and stored as sent,
      and every sweep of it probes nothing. */
  lemma ReversedRangeAccepted(m: Manager, req: ScheduleRequest, newId: int, probe: Scanner.Probe)
    requires ScheduleValid(req) && req.startPort > req.endPort
    ensures var out := CreateSchedule(m, Some(req), DbOk, newId);
      && out.1.status == 200
      && newId in out.0.jobs
      && out.0.jobs[newId].startPort == req.startPort && out.0.jobs[newId].endPort == req.endPort
      && Scanner.ScanRange(req.target, out.0.jobs[newId].startPort, out.0.jobs[newId].endPort, probe) == []
  {
    Scanner.ScanRangeIsPermutationOfRange(req.target, req.startPort, req.endPort, probe);
  }

  /** Ports above 65535 pass the field checks. */
  lemma PortsAreNotBounded(m: Manager, newId: int)
    ensures CreateSchedule(m, Some(ScheduleRequest("h", 1, 70000, 60, false)), DbOk, newId).1.status == 200
  {
  }

  /** As written, seconds survive the trip through `time.Duration` into the
      stored row whenever the product fits in an `int64`. */
  lemma IntervalStoredAsSent(m: Manager, req: ScheduleRequest, newId: int)
    requires ScheduleValid(req) && req.intervalSeconds <= MaxDurationSeconds
    ensures var out := CreateSchedule(m, Some(req), DbOk, newId);
      newId in out.0.jobs && out.0.jobs[newId].intervalSeconds == req.intervalSeconds
  {
    IntervalRoundTrip(req.intervalSeconds);
  }

  /** The interval 9223372037 passes the field checks, but its `time.Duration`
      overflows: the row is stored with -9223372036 seconds, and its runner's
      ticker period is negative, on which `time.NewTicker` panics. */
  lemma OversizedIntervalIsStoredNegative(m: Manager, newId: int)
    ensures var req := ScheduleRequest("h", 1, 1, MaxDurationSeconds + 1, true);
      var out := CreateSchedule(m, Some(req), DbOk, newId);
      && ScheduleValid(req)
      && out.1 == Reply(200, IdBody(newId))
      && newId in out.0.jobs
      && out.0.jobs[newId].intervalSeconds == -MaxDurationSeconds
      && !TickerStarts(out.0.jobs[newId])
  {
    var d := DurationOfSeconds(MaxDurationSeconds + 1);
    assert d == -9_223_372_036_709_551_616;
    assert WholeSeconds(d) == -MaxDurationSeconds;
    assert DurationOfSeconds(-MaxDurationSeconds) == -MaxDurationSeconds * Second;
  }

  /** The field checks with the interval bounded so that its `time.Duration`
      cannot overflow. */
  predicate ScheduleValidChecked(req: ScheduleRequest) {
    ScheduleValid(req) && req.intervalSeconds <= MaxDurationSeconds
  }

  /** `POST /schedules` with the interval bound: an interval too large for a
      `time.Duration` is refused with 400 like any other invalid field. */
  function CreateScheduleChecked(m: Manager, body: Option<ScheduleRequest>, insert: DbOutcome, newId: int)
    : (out: (Manager, Reply))
    ensures out.1.status == 400 <==> body.None? || !ScheduleValidChecked(body.value)
    ensures out.1.status == 400 ==> out.0 == m
    ensures body.Some? && ScheduleValidChecked(body.value) && insert.DbOk? ==>
      && out.1 == Reply(200, IdBody(newId))
      && newId in out.0.jobs
      && out.0.jobs[newId].intervalSeconds == body.value.intervalSeconds
      && TickerStarts(out.0.jobs[newId])
    ensures body.Some? && ScheduleValidChecked(body.value) && insert.DbOk? ==>
      && out.0.jobs[newId] == NewRow(newId, body.value.target, body.value.startPort, body.value.endPort,
                                     DurationOfSeconds(body.value.intervalSeconds), body.value.active)
      && (body.value.active && newId !in m.registry ==> newId in out.0.registry)
  {
    match body
    case None => (m, Reply(400, BadBody))
    case Some(req) =>
      if !ScheduleValidChecked(req) then (m, Reply(400, ErrorText(RequiredFields)))
      else
        IntervalStoredAsSent(m, req, newId);
        assert DurationOfSeconds(req.intervalSeconds) == req.intervalSeconds * Second;
        CreateSchedule(m, body, insert, newId)
  }

  /** The bound changes nothing for the intervals that fit: on those the
      checked handler answers exactly as the one as written. */
  lemma CheckedAgreesWhenIntervalFits(m: Manager, req: ScheduleRequest, insert: DbOutcome, newId: int)
    requires req.intervalSeconds <= MaxDurationSeconds
    ensures CreateScheduleChecked(m, Some(req), insert, newId) == CreateSchedule(m, Some(req), insert, newId)
  {
  }

  // ---------------------------------------------------------------------
  // /schedules/:id/stop, /schedules/:id/start, DELETE /schedules/:id

  /** `POST /schedules/:id/stop`: an id that is not a decimal `int64` gets 400
      "invalid id" and no manager call; otherwise the stop's error gives 500. */
  function StopSchedule(m: Manager, idText: string, update: DbOutcome): (out: (Manager, Reply))
    ensures ParseInt(idText).None? ==> out == (m, Reply(400, ErrorText(InvalidId)))
    ensures ParseInt(idText).Some? ==>
      var call := StopJob(m, ParseInt(idText).value, update);
      out.0 == call.0 && (out.1.status == 500 <==> call.1.Err?) && out.1.status != 400
      && (call.1.Ok? ==> out.1 == Reply(200, MessageBody("stopped")))
      && (call.1.Err? ==> out.1 == Reply(500, ErrorOf(call.1.error)))
  {
    match ParseInt(idText)
    case None => (m, Reply(400, ErrorText(InvalidId)))
    case Some(id) =>
      var call := StopJob(m, id, update);
      (call.0, ReplyOf(call.1, "stopped"))
  }

  /** `POST /schedules/:id/start`: as stop, with `StartJobByID`. */
  function StartSchedule(m: Manager, idText: string, get: DbOutcome, update: DbOutcome): (out: (Manager, Reply))
    ensures ParseInt(idText).None? ==> out == (m, Reply(400, ErrorText(InvalidId)))
    ensures ParseInt(idText).Some? ==>
      var call := StartJobByID(m, ParseInt(idText).value, get, update);
      out.0 == call.0 && (out.1.status == 500 <==> call.1.Err?) && out.1.status != 400
      && (call.1.Ok? ==> out.1 == Reply(200, MessageBody("started")))
      && (call.1.Err? ==> out.1 == Reply(500, ErrorOf(call.1.error)))
  {
    match ParseInt(idText)
    case None => (m, Reply(400, ErrorText(InvalidId)))
    case Some(id) =>
      var call := StartJobByID(m, id, get, update);
      (call.0, ReplyOf(call.1, "started"))
  }

  /** `DELETE /schedules/:id`: as stop, with `DeleteJob`. */
  function DeleteSchedule(m: Manager, idText: string, update: DbOutcome, delete: DbOutcome)
    : (out: (Manager, Reply))
    ensures ParseInt(idText).None? ==> out == (m, Reply(400, ErrorText(InvalidId)))
    ensures ParseInt(idText).Some? ==>
      var call := DeleteJob(m, ParseInt(idText).value, update, delete);
      out.0 == call.0 && (out.1.status == 500 <==> call.1.Err?) && out.1.status != 400
      && (call.1.Ok? ==> out.1 == Reply(200, MessageBody("deleted")))
      && (call.1.Err? ==> out.1 == Reply(500, ErrorOf(call.1.error)))
  {
    match ParseInt(idText)
    case None => (m, Reply(400, ErrorText(InvalidId)))
    case Some(id) =>
      var call := DeleteJob(m, id, update, delete);
      (call.0, ReplyOf(call.1, "deleted"))
  }

  /** An id as Go prints it reaches the manager unchanged, on all three
      routes. */
  lemma PrintedIdReachesManager(m: Manager, id: Int64, get: DbOutcome, update: DbOutcome, delete: DbOutcome)
    ensures StopSchedule(m, FormatInt(id), update).0 == StopJob(m, id, update).0
    ensures StartSchedule(m, FormatInt(id), get, update).0 == StartJobByID(m, id, get, update).0
    ensures DeleteSchedule(m, FormatInt(id), update, delete).0 == DeleteJob(m, id, update, delete).0
  {
    ParseFormatRoundTrip(id);
  }

  /** Starting a job whose row is already active is a server error (500), not
      a client one, and changes nothing. */
  lemma AlreadyActiveIs500(m: Manager, id: Int64, update: DbOutcome)
    requires id in m.jobs && m.jobs[id].active == 1
    ensures StartSchedule(m, FormatInt(id), DbOk, update) == (m, Reply(500, ErrorOf(AlreadyActive)))
  {
    ParseFormatRoundTrip(id);
  }

  /** Ids the routes refuse before calling the manager. */
  lemma MalformedIdsRefused(m: Manager, update: DbOutcome)
    ensures StopSchedule(m, "", update) == (m, Reply(400, ErrorText(InvalidId)))
    ensures StopSchedule(m, "12a", update) == (m, Reply(400, ErrorText(InvalidId)))
    ensures StopSchedule(m, "-", update) == (m, Reply(400, ErrorText(InvalidId)))
  {
    ParseIntRejects();
  }

  // ---------------------------------------------------------------------
  // GET /scans and DELETE /scans

  /** `GET /scans`: the limit defaults to "50", and a limit that is not a
      positive integer becomes 50. The filters on owner, target and
      `open_only` are the store's: `matching` is the store's answer to them,
      newest first. */
  function ListScans(rawLimit: Option<string>, select: DbOutcome, matching: seq<Paging.ScanRow>): (r: Reply)
    ensures select.DbFail? ==> r == Reply(500, ErrorOf(Db(select.err)))
    ensures select.DbOk? ==>
      && r.status == 200 && r.body.ScanList?
      && r.body.rows == Paging.Window(matching, 0, Paging.Limit(rawLimit, "50", 50))
  {
    var limit := Paging.Limit(rawLimit, "50", 50);
    if select.DbFail? then Reply(500, ErrorOf(Db(select.err)))
    else Reply(200, ScanList(Paging.Window(matching, 0, limit)))
  }

  /** Without a usable limit, `GET /scans` returns the 50 newest matching
      rows (or all of them, when fewer match). */
  lemma ScansLimitDefaultsTo50(rawLimit: Option<string>, matching: seq<Paging.ScanRow>)
    requires rawLimit.None? || rawLimit.value == "" || ParseInt(rawLimit.value).None? || ParseInt(rawLimit.value).value <= 0
    ensures var r := ListScans(rawLimit, DbOk, matching);
      r.body.rows == if |matching| <= 50 then matching else matching[..50]
  {
    ParseFormatRoundTrip(50);
    assert FormatInt(50) == "50";
    assert Paging.Limit(rawLimit, "50", 50) == 50;
  }

  /** The rows `DELETE FROM scans WHERE target = ?` keeps, in order. */
  function Without(scans: seq<Paging.ScanRow>, target: string): (kept: seq<Paging.ScanRow>)
    ensures |kept| <= |scans|
    ensures forall r :: r in kept ==> r in scans && r.record.target != target
    ensures forall r :: r in scans && r.record.target != target ==> r in kept
  {
    if scans == [] then []
    else if scans[0].record.target == target then Without(scans[1..], target)
    else [scans[0]] + Without(scans[1..], target)
  }

  /** The number of rows for `target`. */
  function CountFor(scans: seq<Paging.ScanRow>, target: string): nat {
    if scans == [] then 0
    else (if scans[0].record.target == target then 1 else 0) + CountFor(scans[1..], target)
  }

  /** Deleting a target's rows removes exactly as many rows as it has. */
  lemma {:induction false} WithoutRemovesCount(scans: seq<Paging.ScanRow>, target: string)
    ensures |scans| - |Without(scans, target)| == CountFor(scans, target)
  {
    if scans != [] {
      WithoutRemovesCount(scans[1..], target);
    }
  }

  /** `DELETE /scans?target=…`: an absent or empty target gets 400 and deletes
      nothing; a failed delete gets 500; otherwise the target's rows go and
      the reply says how many. */
  function DeleteScans(scans: seq<Paging.ScanRow>, rawTarget: Option<string>, exec: DbOutcome)
    : (out: (seq<Paging.ScanRow>, Reply))
    ensures Paging.Param(rawTarget, "") == "" ==> out == (scans, Reply(400, ErrorText(TargetRequired)))
    ensures var t := Paging.Param(rawTarget, "");
      t != "" ==>
        && (exec.DbFail? ==> out == (scans, Reply(500, ErrorText(DeleteFailed))))
        && (exec.DbOk? ==>
              && out.1 == Reply(200, DeletedBody(CountFor(scans, t), t))
              && (forall r :: r in out.0 ==> r.record.target != t)
              && (forall r :: r in scans && r.record.target != t ==> r in out.0)
              && |out.0| + CountFor(scans, t) == |scans|)
  {
    var target := Paging.Param(rawTarget, "");
    if target == "" then (scans, Reply(400, ErrorText(TargetRequired)))
    else if exec.DbFail? then (scans, Reply(500, ErrorText(DeleteFailed)))
    else
      var kept := Without(scans, target);
      WithoutRemovesCount(scans, target);
      (kept, Reply(200, DeletedBody(|scans| - |kept|, target)))
  }

  /** Deleting a target twice: the second delete finds nothing to remove. */
  lemma DeleteScansTwice(scans: seq<Paging.ScanRow>, target: string)
    requires target != ""
    ensures var first := DeleteScans(scans, Some(target), DbOk).0;
      DeleteScans(first, Some(target), DbOk) == (first, Reply(200, DeletedBody(0, target)))
  {
    var first := DeleteScans(scans, Some(target), DbOk).0;
    NoneLeftToRemove(first, target);
  }

  lemma {:induction false} NoneLeftToRemove(scans: seq<Paging.ScanRow>, target: string)
    requires forall r :: r in scans ==> r.record.target != target
    ensures Without(scans, target) == scans && CountFor(scans, target) == 0
  {
    if scans != [] {
      assert scans[0] in scans;
      assert forall r :: r in scans[1..] ==> r in scans;
      NoneLeftToRemove(scans[1..], target);
      assert [scans[0]] + scans[1..] == scans;
    }
  }

  /** What a sweep adds to `scans` is what `DELETE /scans` with the job's
      target removes: no row listed from it survives the delete. */
  lemma SweepRowsDeletedWithTarget(table: seq<Paging.ScanRow>, before: seq<ScanRecord>, job: JobRow,
                                   probe: Scanner.Probe, writes: Persist.Writes, k: nat, row: Paging.ScanRow)
    requires job.target != ""
    requires var after := SweepAndSave(before, job, probe, writes);
      |before| <= k < |after| && row.record == after[k] && row in table
    ensures row !in DeleteScans(table, Some(job.target), DbOk).0
  {
  }
}

=== FILE: errors.dfy ===
/**
 The error values of the scheduler and of the store it talks to.

 Every store call in the model takes a `DbOutcome` parameter: the store's own
 answer (success, "no rows", or some other failure) is nondeterministic from the
 scheduler's point of view, so each failure path can be stated exactly.
 */
module Errors {

  /** What a failing store call reports. `ErrNoRows` is `sql.ErrNoRows`. */
  datatype DbError = ErrNoRows | ErrDb(code: nat)

  /** The outcome of one store call. */
  datatype DbOutcome = DbOk | DbFail(err: DbError)

  /** Errors returned by the scheduler manager. */
  datatype Error =
    | Db(cause: DbError)            // a store error passed through unchanged
    | AlreadyRunning(id: int)       // "job %d already running" (startRunner)
    | AlreadyActive                 // "job already active" (StartJobByID)
    | CancelledBeforeStart(id: int) // "job %d cancelled before start" (executeOnce)

  /** Go's `error` return: nil or an error value. */
  datatype Status = Ok | Err(error: Error)

  /** A value-or-error return, as in `(int64, error)`. */
  datatype Result<T> = Success(value: T) | Failure(error: Error)

  /** The status a store call turns into when its error is returned as is. */
  function StatusOf(o: DbOutcome): (st: Status)
    ensures st.Ok? <==> o.DbOk?
    ensures o.DbFail? ==> st == Err(Db(o.err))
  {
    match o
    case DbOk => Ok
    case DbFail(e) => Err(Db(e))
  }
}

=== FILE: goint.dfy ===
/**
 Go's 64-bit integer arithmetic as the scheduler uses it: two's-complement
 wrap-around of `int64`, division truncated toward zero, and `time.Duration`
 (an `int64` count of nanoseconds).
 */
module GoInt {

  const MaxInt64: int := 0x7fff_ffff_ffff_ffff
  const MinInt64: int := -0x8000_0000_0000_0000
  const TwoTo64: int := 0x1_0000_0000_0000_0000

  /** Nanoseconds per second: `time.Second`. */
  const Second: int := 1_000_000_000

  /** The largest whole number of seconds a `time.Duration` can hold. */
  const MaxDurationSeconds: int := 9_223_372_036

  type Int64 = x: int | MinInt64 <= x <= MaxInt64

  /** The `int64` a product or sum wraps to: the unique value in range that is
      congruent to `x` modulo 2^64. */
  function Wrap64(x: int): (r: Int64)
    ensures (x - r) % TwoTo64 == 0
    ensures MinInt64 <= x <= MaxInt64 ==> r == x
  {
    var r := (x - MinInt64) % TwoTo64 + MinInt64;
    assert MinInt64 <= x <= MaxInt64 ==> (x - MinInt64) % TwoTo64 == x - MinInt64;
    r
  }

  /** Go's integer `/`: the quotient truncated toward zero (Dafny's `/` is
      Euclidean, which differs for a negative dividend). */
  function Quo(a: int, b: int): (q: int)
    requires b > 0
    ensures a >= 0 ==> q * b <= a < q * b + b
    ensures a < 0 ==> q * b - b < a <= q * b
  {
    if a >= 0 then a / b else -((-a) / b)
  }

  /** `time.Duration(secs) * time.Second`, wrapping like any `int64` product. */
  function DurationOfSeconds(secs: Int64): (d: Int64)
    ensures -MaxDurationSeconds <= secs <= MaxDurationSeconds ==> d == secs * Second
    ensures (secs * Second - d) % TwoTo64 == 0
  {
    Wrap64(secs * Second)
  }

  /** `int(d.Seconds())`, taken as the whole seconds of a duration truncated
      toward zero. Go first forms the float `sec + nsec/1e9`; above 2^33 whole
      seconds that float can round up to the next second, which this exact
      truncation does not follow. */
  function WholeSeconds(d: Int64): (s: int)
    ensures d >= 0 ==> 0 <= s * Second <= d < s * Second + Second
    ensures d < 0 ==> s * Second - Second < d <= s * Second <= 0
  {
    Quo(d, Second)
  }

  /** Seconds survive the trip through `time.Duration` whenever the product does
      not overflow. */
  lemma IntervalRoundTrip(secs: Int64)
    requires 0 < secs <= MaxDurationSeconds
    ensures WholeSeconds(DurationOfSeconds(secs)) == secs
  {
    var d := DurationOfSeconds(secs);
    assert d == secs * Second;
    assert d / Second == secs;
  }

  /** The bound of `IntervalRoundTrip` is the exact limit of `int64`. */
  lemma MaxDurationSecondsIsTight()
    ensures MaxDurationSeconds * Second <= MaxInt64 < (MaxDurationSeconds + 1) * Second
  {
  }
}

=== FILE: jobstore.dfy ===
/**
 The two tables the scheduler reads and writes: `jobs` (a job definition per
 id, `active` stored as 0 or 1) and `scans` (one row per probed port). The
 store is a value; each statement the scheduler runs against it is a function
 here, and whether the statement succeeds is decided by the caller's
 `DbOutcome`.
 */
module JobStore {
  import Scanner

  /** A `jobs` row (`scheduler.JobRow`); `created_at` is left to the store. */
  datatype JobRow = JobRow(
    id: int,
    target: string,
    startPort: int,
    endPort: int,
    intervalSeconds: int,
    active: int)

  /** A `scans` row written by a recurring sweep. */
  datatype ScanRecord = ScanRecord(target: string, port: int, isOpen: bool, durationMs: int)

  /** The jobs table, keyed by id: the row under a key carries that id. */
  type Jobs = jobs: map<int, JobRow> | forall k :: k in jobs ==> jobs[k].id == k
    witness map[]

  /** `UPDATE jobs SET active = ? WHERE id = ?`: touches only row `id`, and is
      a no-op (not an error) when there is no such row. */
  function SetActive(jobs: Jobs, id: int, flag: int): (jobs': Jobs)
    ensures jobs'.Keys == jobs.Keys
    ensures id in jobs ==> jobs'[id] == jobs[id].(active := flag)
    ensures forall k :: k in jobs && k != id ==> jobs'[k] == jobs[k]
  {
    if id in jobs then jobs[id := jobs[id].(active := flag)] else jobs
  }

  /** `DELETE FROM jobs WHERE id = ?`. */
  function DeleteRow(jobs: Jobs, id: int): (jobs': Jobs)
    ensures jobs'.Keys == jobs.Keys - {id}
    ensures forall k :: k in jobs' ==> jobs'[k] == jobs[k]
  {
    jobs - {id}
  }

  /** The `scans` row a sweep writes for one probe result. */
  function Record(target: string, r: Scanner.PortResult): (rec: ScanRecord)
    ensures rec.target == target && rec.port == r.port && rec.isOpen == r.isOpen && rec.durationMs == r.duration
  {
    ScanRecord(target, r.port, r.isOpen, r.duration)
  }

  /** No two rows are for the same port. */
  predicate DistinctRows(rows: seq<ScanRecord>) {
    forall a, b :: 0 <= a < b < |rows| ==> rows[a].port != rows[b].port
  }

  /** Some row of `scans` is for `port`. */
  predicate HasRow(scans: seq<ScanRecord>, port: int) {
    exists k :: 0 <= k < |scans| && scans[k].port == port
  }
}

=== FILE: paging.dfy ===
/**
 The paginated listings `GET /api/jobs` and `GET /api/scans`: read `limit`
 and `offset` from the query string, normalise them, and answer with one
 window of the store's listing together with the limit and offset used.

 The listing itself (`ORDER BY created_at DESC`) is the store's; here it is a
 parameter, already in that order.
 */
module Paging {
  import opened GoInt
  import opened Strconv
  import opened Errors
  import JobStore

  /** `c.Query(key, dflt)`: the parameter's text, or `dflt` when the parameter
      is absent or empty (fiber does not tell the two apart). */
  function Param(raw: Option<string>, dflt: string): (s: string)
    ensures raw.Some? && raw.value != "" ==> s == raw.value
    ensures raw.None? || raw.value == "" ==> s == dflt
  {
    if raw.Some? && raw.value != "" then raw.value else dflt
  }

  /** A limit: the parameter (or `dflt` when absent) if it parses to a
      positive integer, else `fallback`. */
  function Limit(raw: Option<string>, dflt: string, fallback: Int64): (limit: Int64)
    requires fallback > 0
    ensures limit >= 1
    ensures limit != fallback ==> ParseInt(Param(raw, dflt)) == Some(limit)
    ensures ParseInt(Param(raw, dflt)).Some? && ParseInt(Param(raw, dflt)).value > 0 ==>
              limit == ParseInt(Param(raw, dflt)).value
  {
    match ParseInt(Param(raw, dflt))
    case Some(v) => if v <= 0 then fallback else v
    case None => fallback
  }

  /** An offset: the parameter (or `dflt` when absent) if it parses to a
      non-negative integer, else 0. */
  function Offset(raw: Option<string>, dflt: string): (offset: Int64)
    ensures offset >= 0
    ensures offset != 0 ==> ParseInt(Param(raw, dflt)) == Some(offset)
    ensures ParseInt(Param(raw, dflt)).Some? && ParseInt(Param(raw, dflt)).value >= 0 ==>
              offset == ParseInt(Param(raw, dflt)).value
  {
    match ParseInt(Param(raw, dflt))
    case Some(v) => if v < 0 then 0 else v
    case None => 0
  }

  /** What `LIMIT limit OFFSET offset` keeps of a listing: up to `limit` rows,
      starting after the first `offset`. */
  function Window<T>(rows: seq<T>, offset: nat, limit: nat): (page: seq<T>)
    ensures |page| == if offset >= |rows| then 0 else if |rows| - offset < limit then |rows| - offset else limit
    ensures forall i :: 0 <= i < |page| ==> page[i] == rows[offset + i]
  {
    if offset >= |rows| then []
    else if |rows| - offset < limit then rows[offset..]
    else rows[offset..offset + limit]
  }

  /** The JSON body of a listing: `{"error": …}` alone, or the limit and
      offset used together with the data. */
  datatype Body<T> =
    | ErrorBody(cause: DbError)
    | PageBody(limit: Int64, offset: Int64, data: seq<T>)

  datatype Response<T> = Response(status: int, body: Body<T>)

  /** The `/api/scans` row: the columns a sweep writes (`JobStore.ScanRecord`)
      together with the id the store assigns and the owner. */
  datatype ScanRow = ScanRow(id: int, record: JobStore.ScanRecord, userId: int)

  /** The shared shape of both listing handlers, with limit default "10" and
      fallback 10, offset default "0". */
  function ListPage<T>(rawLimit: Option<string>, rawOffset: Option<string>, select: DbOutcome, listing: seq<T>)
    : (r: Response<T>)
    ensures select.DbFail? ==> r == Response(500, ErrorBody(select.err))
    ensures select.DbOk? ==>
      && r.status == 200 && r.body.PageBody?
      && r.body.limit >= 1 && r.body.offset >= 0
      && r.body.data == Window(listing, r.body.offset, r.body.limit)
      && r.body.limit == Limit(rawLimit, "10", 10)
      && r.body.offset == Offset(rawOffset, "0")
  {
    var limit := Limit(rawLimit, "10", 10);
    var offset := Offset(rawOffset, "0");
    if select.DbFail? then Response(500, ErrorBody(select.err))
    else Response(200, PageBody(limit, offset, Window(listing, offset, limit)))
  }

  /** `GetJobsHandler`. */
  function GetJobs(rawLimit: Option<string>, rawOffset: Option<string>, select: DbOutcome,
                   listing: seq<JobStore.JobRow>): (r: Response<JobStore.JobRow>)
    ensures r == ListPage(rawLimit, rawOffset, select, listing)
    ensures r.status == 200 <==> select.DbOk?
    ensures r.status == 200 ==> |r.body.data| <= r.body.limit
  {
    ListPage(rawLimit, rawOffset, select, listing)
  }

  /** `GetScansHandler`. */
  function GetScans(rawLimit: Option<string>, rawOffset: Option<string>, select: DbOutcome,
                    listing: seq<ScanRow>): (r: Response<ScanRow>)
    ensures r == ListPage(rawLimit, rawOffset, select, listing)
    ensures r.status == 200 <==> select.DbOk?
    ensures r.status == 200 ==> |r.body.data| <= r.body.limit
  {
    ListPage(rawLimit, rawOffset, select, listing)
  }

  // ---------------------------------------------------------------------
  // Normalisation

  /** Absent parameters give limit 10 and offset 0, and so does an empty one. */
  lemma AbsentDefaults()
    ensures Limit(None, "10", 10) == 10 && Offset(None, "0") == 0
    ensures Limit(Some(""), "10", 10) == 10 && Offset(Some(""), "0") == 0
  {
    ParseFormatRoundTrip(10);
    ParseFormatRoundTrip(0);
    assert FormatInt(10) == "10";
    assert FormatInt(0) == "0";
  }

  /** A limit that parses to a positive integer is kept, however it is
      spelled ("5", "+5", "05"); in particular as Go prints it. */
  lemma PositiveLimitKept(s: string, v: Int64, dflt: string, fallback: Int64)
    requires ParseInt(s) == Some(v) && v > 0 && fallback > 0
    ensures Limit(Some(s), dflt, fallback) == v
    ensures Limit(Some(FormatInt(v)), dflt, fallback) == v
  {
    ParseIntRejects();
    ParseFormatRoundTrip(v);
  }

  /** "+5" and "05" are limits of 5, as Go reads them. */
  lemma OtherSpellingsKept()
    ensures Limit(Some("+5"), "10", 10) == 5 && Limit(Some("05"), "10", 10) == 5
  {
    assert Unsigned("+5") == "5" && Unsigned("05") == "05";
    assert DigitsValue("05"[..1]) == 0;
    assert ParseInt("+5") == Some(5) && ParseInt("05") == Some(5);
    PositiveLimitKept("+5", 5, "10", 10);
    PositiveLimitKept("05", 5, "10", 10);
  }

  /** A present limit that is not an integer, or is not positive, gives the
      fallback. */
  lemma BadLimitFallsBack(s: string, dflt: string, fallback: Int64)
    requires s != "" && fallback > 0
    requires ParseInt(s).None? || ParseInt(s).value <= 0
    ensures Limit(Some(s), dflt, fallback) == fallback
  {
  }

  /** An offset that parses to a non-negative integer is kept, however it is
      spelled; in particular as Go prints it. */
  lemma NonNegativeOffsetKept(s: string, v: Int64, dflt: string)
    requires ParseInt(s) == Some(v) && v >= 0
    ensures Offset(Some(s), dflt) == v
    ensures Offset(Some(FormatInt(v)), dflt) == v
  {
    ParseIntRejects();
    ParseFormatRoundTrip(v);
  }

  /** A present offset that is not an integer, or is negative, gives 0. */
  lemma BadOffsetFallsBack(s: string, dflt: string)
    requires s != ""
    requires ParseInt(s).None? || ParseInt(s).value < 0
    ensures Offset(Some(s), dflt) == 0
  {
  }

  /** Normalisation is idempotent: sending back the limit and offset a
      response echoes gives the same limit and offset again. */
  lemma EchoIsFixpoint(rawLimit: Option<string>, rawOffset: Option<string>)
    ensures var l := Limit(rawLimit, "10", 10);
            var o := Offset(rawOffset, "0");
      Limit(Some(FormatInt(l)), "10", 10) == l && Offset(Some(FormatInt(o)), "0") == o
  {
    var l := Limit(rawLimit, "10", 10);
    var o := Offset(rawOffset, "0");
    ParseFormatRoundTrip(l);
    ParseFormatRoundTrip(o);
    PositiveLimitKept(FormatInt(l), l, "10", 10);
    NonNegativeOffsetKept(FormatInt(o), o, "0");
  }

  // ---------------------------------------------------------------------
  // Windows

  /** Two adjacent windows make one window as long as both. */
  lemma AdjacentWindows<T>(rows: seq<T>, offset: nat, a: nat, b: nat)
    ensures Window(rows, offset, a) + Window(rows, offset + a, b) == Window(rows, offset, a + b)
  {
    var left := Window(rows, offset, a);
    var whole := Window(rows, offset, a + b);
    var both := left + Window(rows, offset + a, b);
    assert |both| == |whole|;
    forall i | 0 <= i < |whole| ensures both[i] == whole[i] {
      if i >= |left| {
        assert |left| == a;
      }
    }
  }

  /** Every row is on exactly one page of a walk with a fixed limit: the page
      at offset `(i / limit) * limit`, at position `i % limit`. */
  lemma RowOnItsPage<T>(rows: seq<T>, limit: nat, i: nat)
    requires limit > 0 && i < |rows|
    ensures var page := Window(rows, (i / limit) * limit, limit);
      i % limit < |page| && page[i % limit] == rows[i]
  {
    var offset := (i / limit) * limit;
    assert offset + i % limit == i;
  }

  /** A request carrying a limit and an offset Go printed is answered with
      exactly that window. */
  lemma EchoedPage<T>(limit: Int64, offset: Int64, listing: seq<T>)
    requires limit > 0 && offset >= 0
    ensures ListPage(Some(FormatInt(limit)), Some(FormatInt(offset)), DbOk, listing).body
         == PageBody(limit, offset, Window(listing, offset, limit))
  {
    ParseFormatRoundTrip(limit);
    ParseFormatRoundTrip(offset);
    PositiveLimitKept(FormatInt(limit), limit, "10", 10);
    NonNegativeOffsetKept(FormatInt(offset), offset, "0");
  }

  /** Following the echoed limit and offset, the next request (offset moved on
      by the limit) gets the rows right after the current page. */
  lemma NextPageContinues<T>(limit: Int64, offset: Int64, listing: seq<T>)
    requires limit > 0 && offset >= 0 && offset + limit <= MaxInt64
    ensures var r1 := ListPage(Some(FormatInt(limit)), Some(FormatInt(offset)), DbOk, listing);
      var r2 := ListPage(Some(FormatInt(limit)), Some(FormatInt(offset + limit)), DbOk, listing);
      r1.body.data + r2.body.data == Window(listing, offset, limit + limit)
  {
    EchoedPage(limit, offset, listing);
    EchoedPage(limit, offset + limit, listing);
    AdjacentWindows(listing, offset, limit, limit);
  }
}

=== FILE: persist.dfy ===
/**
 Writing one sweep's results (`executeScanAndSave` after the scan itself).

 The writer first tries to open a transaction. If that fails it falls back to
 inserting every result on its own and returns the begin error. Otherwise it
 inserts every result inside the transaction and returns only the commit's
 error. A failing insert is printed and skipped on both paths; it is never
 returned. A failed commit persists none of the transaction's rows.
 */
module Persist {
  import opened Errors
  import opened JobStore
  import Scanner

  /** The store's answers while one sweep is written: the begin, each insert
      (`insertOk(i)` for the i-th result), and the commit. */
  datatype Writes = Writes(begin: DbOutcome, insertOk: nat -> bool, commit: DbOutcome)

  /** The rows of every result, in order. */
  function Records(target: string, results: seq<Scanner.PortResult>): (recs: seq<ScanRecord>)
    ensures |recs| == |results|
    ensures forall i :: 0 <= i < |results| ==> recs[i] == Record(target, results[i])
  {
    seq(|results|, i requires 0 <= i < |results| => Record(target, results[i]))
  }

  /** The rows that one insert per result leaves behind: those whose insert
      succeeded, in result order. */
  function InsertEach(target: string, results: seq<Scanner.PortResult>, ok: nat -> bool): (written: seq<ScanRecord>)
    ensures |written| <= |results|
    ensures (forall i :: 0 <= i < |results| ==> ok(i)) ==> written == Records(target, results)
    decreases |results|
  {
    if |results| == 0 then []
    else
      var rest := InsertEach(target, results[1..], Shift(ok));
      RecordsCons(target, results);
      (if ok(0) then [Record(target, results[0])] else []) + rest
  }

  lemma RecordsCons(target: string, results: seq<Scanner.PortResult>)
    requires |results| > 0
    ensures Records(target, results) == [Record(target, results[0])] + Records(target, results[1..])
  {
    var a := Records(target, results);
    var b := [Record(target, results[0])] + Records(target, results[1..]);
    assert |a| == |b|;
    forall i | 0 <= i < |a| ensures a[i] == b[i] {
      if i > 0 {
        assert results[1..][i - 1] == results[i];
      }
    }
  }

  /** The outcomes of the inserts after the first. */
  function Shift(ok: nat -> bool): (next: nat -> bool)
    ensures forall i: nat :: next(i) == ok(i + 1)
  {
    (i: nat) => ok(i + 1)
  }

  /** Every result whose insert succeeded is written. */
  lemma {:induction false} InsertEachKeepsSucceeded(target: string, results: seq<Scanner.PortResult>, ok: nat -> bool, i: nat)
    requires i < |results| && ok(i)
    ensures Record(target, results[i]) in InsertEach(target, results, ok)
    decreases |results|
  {
    if i > 0 {
      assert results[1..][i - 1] == results[i];
      InsertEachKeepsSucceeded(target, results[1..], Shift(ok), i - 1);
    }
  }

  /** Only results whose insert succeeded are written. */
  lemma {:induction false} InsertEachOnlySucceeded(target: string, results: seq<Scanner.PortResult>, ok: nat -> bool, w: ScanRecord)
    requires w in InsertEach(target, results, ok)
    ensures exists i :: 0 <= i < |results| && ok(i) && w == Record(target, results[i])
    decreases |results|
  {
    var rest := InsertEach(target, results[1..], Shift(ok));
    if ok(0) && w == Record(target, results[0]) {
      assert 0 < |results|;
    } else {
      assert w in rest;
      InsertEachOnlySucceeded(target, results[1..], Shift(ok), w);
      var j :| 0 <= j < |results[1..]| && Shift(ok)(j) && w == Record(target, results[1..][j]);
      assert ok(j + 1) && results[1..][j] == results[j + 1];
    }
  }

  /** Results for distinct ports are written as rows for distinct ports. */
  lemma {:induction false} InsertEachKeepsDistinct(target: string, results: seq<Scanner.PortResult>, ok: nat -> bool)
    requires Scanner.DistinctPorts(results)
    ensures DistinctRows(InsertEach(target, results, ok))
    decreases |results|
  {
    if |results| > 0 {
      var written := InsertEach(target, results, ok);
      var rest := InsertEach(target, results[1..], Shift(ok));
      InsertEachKeepsDistinct(target, results[1..], Shift(ok));
      forall w | w in rest ensures w.port != results[0].port {
        InsertEachOnlySucceeded(target, results[1..], Shift(ok), w);
        var j :| 0 <= j < |results[1..]| && Shift(ok)(j) && w == Record(target, results[1..][j]);
        assert results[1..][j] == results[j + 1];
      }
      if ok(0) {
        assert written == [Record(target, results[0])] + rest;
        forall a, b | 0 <= a < b < |written| ensures written[a].port != written[b].port {
          assert written[b] == rest[b - 1];
          if a > 0 {
            assert written[a] == rest[a - 1];
          }
        }
      } else {
        assert written == rest;
      }
    }
  }

  /** The rows one sweep adds are for distinct ports when its results are. */
  lemma SaveSweepKeepsDistinct(scans: seq<ScanRecord>, target: string, results: seq<Scanner.PortResult>, w: Writes)
    requires Scanner.DistinctPorts(results)
    ensures DistinctRows(SaveSweep(scans, target, results, w).0[|scans|..])
  {
    InsertEachKeepsDistinct(target, results, w.insertOk);
    var after := SaveSweep(scans, target, results, w).0;
    if !(w.begin.DbOk? && w.commit.DbFail?) {
      assert after[|scans|..] == InsertEach(target, results, w.insertOk);
    } else {
      assert after[|scans|..] == [];
    }
  }

  /** The `scans` table after the sweep is written, and what the sweep returns. */
  function SaveSweep(scans: seq<ScanRecord>, target: string, results: seq<Scanner.PortResult>, w: Writes)
    : (out: (seq<ScanRecord>, Status))
    ensures scans <= out.0
    ensures out.1 == (if w.begin.DbFail? then StatusOf(w.begin) else StatusOf(w.commit))
    ensures w.begin.DbFail? ==> out.0 == scans + InsertEach(target, results, w.insertOk)
    ensures w.begin.DbOk? && w.commit.DbFail? ==> out.0 == scans
    ensures w.begin.DbOk? && w.commit.DbOk? ==> out.0 == scans + InsertEach(target, results, w.insertOk)
  {
    var written := InsertEach(target, results, w.insertOk);
    if w.begin.DbFail? then
      (scans + written, StatusOf(w.begin))
    else if w.commit.DbFail? then
      (scans, StatusOf(w.commit))
    else
      (scans + written, Ok)
  }

  /** Per-row insert failures never change what a sweep returns: the status
      depends only on the begin and the commit. */
  lemma RowFailuresAreNeverReturned(scans: seq<ScanRecord>, target: string, results: seq<Scanner.PortResult>,
                                    w: Writes, otherInserts: nat -> bool)
    ensures SaveSweep(scans, target, results, w).1
         == SaveSweep(scans, target, results, w.(insertOk := otherInserts)).1
    ensures var st := SaveSweep(scans, target, results, w).1;
      st.Err? ==> ((w.begin.DbFail? && st.error == Db(w.begin.err))
                || (w.begin.DbOk? && w.commit.DbFail? && st.error == Db(w.commit.err)))
  {
  }

  /** When every insert succeeds, the whole sweep lands in `scans` unless the
      transaction was opened and then failed to commit; a failed begin still
      loses nothing. */
  lemma NothingLostWithoutCommitFailure(scans: seq<ScanRecord>, target: string, results: seq<Scanner.PortResult>, w: Writes)
    requires forall i :: 0 <= i < |results| ==> w.insertOk(i)
    ensures var out := SaveSweep(scans, target, results, w);
      results != [] ==> ((w.begin.DbFail? || w.commit.DbOk?) <==> out.0 == scans + Records(target, results))
  {
    var out := SaveSweep(scans, target, results, w);
    if w.begin.DbOk? && w.commit.DbFail? && results != [] {
      assert |out.0| == |scans|;
    }
  }
}

=== FILE: scanner.dfy ===
/**
 The port probe engine (`scan.ScanPort`, `scan.ScanRange`).

 The network is an oracle: a `Probe` says whether the host lookup succeeded,
 whether the dial to each port succeeded, and how many milliseconds each probe
 took. The fan-in over the results channel receives the finished probes in an
 order the scheduler of goroutines decides; `pick` is that choice: at the
 `step`-th receive, among the `n` probes not yet received, the one at index
 `pick(step, n) % n` arrives.
 */
module Scanner {

  datatype PortResult = PortResult(port: int, isOpen: bool, duration: int)

  datatype Probe = Probe(
    resolves: bool,            // net.LookupHost succeeded (only logged)
    dials: int -> bool,        // net.DialTimeout succeeded for this port
    elapsed: int -> nat,       // milliseconds the probe of this port took
    pick: (nat, nat) -> nat)   // which pending probe the next receive gets

  /** One probe. The lookup outcome is only printed; the dial is attempted
      either way, and any dial error means "closed", never an error. */
  function ScanPort(target: string, port: int, resolves: bool, dialOk: bool, elapsedMs: nat): (r: PortResult)
    ensures r.port == port
    ensures r.isOpen <==> dialOk
    ensures r.duration == elapsedMs
  {
    if !dialOk then PortResult(port, false, elapsedMs)
    else PortResult(port, true, elapsedMs)
  }

  /** The host lookup has no effect on the result. */
  lemma LookupIsAdvisory(target: string, port: int, dialOk: bool, elapsedMs: nat)
    ensures ScanPort(target, port, true, dialOk, elapsedMs) == ScanPort(target, port, false, dialOk, elapsedMs)
  {
  }

  /** How many ports the inclusive range `start..end` holds. */
  function Width(start: int, end: int): nat {
    if end < start then 0 else end - start + 1
  }

  /** The probe each goroutine of the fan-out sends, in launch (port) order. */
  function Launch(target: string, start: int, end: int, probe: Probe): (rs: seq<PortResult>)
    ensures |rs| == Width(start, end)
    ensures forall i :: 0 <= i < |rs| ==>
              rs[i] == ScanPort(target, start + i, probe.resolves, probe.dials(start + i), probe.elapsed(start + i))
  {
    seq(Width(start, end), i requires 0 <= i < Width(start, end) =>
      ScanPort(target, start + i, probe.resolves, probe.dials(start + i), probe.elapsed(start + i)))
  }

  /** The fan-in: one receive per pending probe, each taking whichever
      finished probe `pick` selects. */
  function FanIn<T>(pending: seq<T>, pick: (nat, nat) -> nat, step: nat): (got: seq<T>)
    ensures multiset(got) == multiset(pending)
    decreases |pending|
  {
    if |pending| == 0 then []
    else
      var k := pick(step, |pending|) % |pending|;
      var rest := pending[..k] + pending[k + 1..];
      assert pending == pending[..k] + [pending[k]] + pending[k + 1..];
      [pending[k]] + FanIn(rest, pick, step + 1)
  }

  /** `ScanRange`: fan out one probe per port of `start..end`, collect them all. */
  function ScanRange(target: string, start: int, end: int, probe: Probe): (rs: seq<PortResult>)
    ensures multiset(rs) == multiset(Launch(target, start, end, probe))
  {
    FanIn(Launch(target, start, end, probe), probe.pick, 0)
  }

  predicate DistinctPorts(rs: seq<PortResult>) {
    forall i, j :: 0 <= i < j < |rs| ==> rs[i].port != rs[j].port
  }

  lemma {:induction false} DistinctPortsCountAtMostOne(rs: seq<PortResult>, x: PortResult)
    requires DistinctPorts(rs)
    ensures multiset(rs)[x] <= 1
  {
    if |rs| > 0 {
      assert rs == [rs[0]] + rs[1..];
      DistinctPortsCountAtMostOne(rs[1..], x);
      if rs[0] == x {
        assert x !in rs[1..] by {
          forall j | 0 <= j < |rs[1..]| ensures rs[1..][j] != x {
            assert rs[1..][j] == rs[j + 1];
          }
        }
      }
    }
  }

  lemma TwoIndicesCount<T>(s: seq<T>, i: nat, j: nat)
    requires i < j < |s| && s[i] == s[j]
    ensures multiset(s)[s[i]] >= 2
  {
    assert s == s[..j] + s[j..];
    assert s[i] in s[..j];
    assert s[j] in s[j..];
  }

  /** A permutation of a sequence with distinct ports has distinct ports. */
  lemma PermutationKeepsDistinct(a: seq<PortResult>, b: seq<PortResult>)
    requires multiset(a) == multiset(b) && DistinctPorts(a)
    ensures DistinctPorts(b)
  {
    forall i, j | 0 <= i < j < |b| ensures b[i].port != b[j].port {
      if b[i].port == b[j].port {
        assert b[i] in multiset(a) && b[j] in multiset(a);
        var ia :| 0 <= ia < |a| && a[ia] == b[i];
        var ja :| 0 <= ja < |a| && a[ja] == b[j];
        if ia != ja {
          assert false;
        } else {
          TwoIndicesCount(b, i, j);
          DistinctPortsCountAtMostOne(a, b[i]);
          assert false;
        }
      }
    }
  }

  /** Some result of `rs` is for port `p`. */
  predicate HasPort(rs: seq<PortResult>, p: int) {
    exists i :: 0 <= i < |rs| && rs[i].port == p
  }

  lemma PermutationLength<T>(a: seq<T>, b: seq<T>)
    requires multiset(a) == multiset(b)
    ensures |a| == |b|
  {
    assert |multiset(a)| == |a| && |multiset(b)| == |b|;
  }

  /** What any launched probe result says about its port. */
  lemma LaunchedResult(target: string, start: int, end: int, probe: Probe, x: PortResult)
    requires x in Launch(target, start, end, probe)
    ensures start <= x.port <= end && (x.isOpen <==> probe.dials(x.port))
  {
    var launched := Launch(target, start, end, probe);
    var k :| 0 <= k < |launched| && launched[k] == x;
  }

  /** Every probe result of the fan-out arrives, and nothing else does. */
  lemma ScanRangeElements(target: string, start: int, end: int, probe: Probe)
    ensures var rs := ScanRange(target, start, end, probe);
      && (forall i :: 0 <= i < |rs| ==> start <= rs[i].port <= end)
      && (forall i :: 0 <= i < |rs| ==> (rs[i].isOpen <==> probe.dials(rs[i].port)))
      && (forall p :: start <= p <= end ==> HasPort(rs, p))
  {
    var launched := Launch(target, start, end, probe);
    var rs := ScanRange(target, start, end, probe);
    forall i | 0 <= i < |rs|
      ensures start <= rs[i].port <= end && (rs[i].isOpen <==> probe.dials(rs[i].port))
    {
      assert rs[i] in multiset(launched);
      LaunchedResult(target, start, end, probe, rs[i]);
    }
    forall p | start <= p <= end ensures HasPort(rs, p) {
      var x := launched[p - start];
      assert x in multiset(rs);
      assert x in rs;
    }
  }

  /** The sweep returns one result per port of `start..end`, each port exactly
      once, nothing outside the range, and empty when `end < start`. Each
      result says "open" exactly when the dial to its port succeeded. */
  lemma ScanRangeIsPermutationOfRange(target: string, start: int, end: int, probe: Probe)
    ensures var rs := ScanRange(target, start, end, probe);
      && |rs| == Width(start, end)
      && (end < start ==> rs == [])
      && (forall i :: 0 <= i < |rs| ==> start <= rs[i].port <= end)
      && (forall i :: 0 <= i < |rs| ==> (rs[i].isOpen <==> probe.dials(rs[i].port)))
      && (forall p :: start <= p <= end ==> HasPort(rs, p))
      && DistinctPorts(rs)
  {
    var launched := Launch(target, start, end, probe);
    var rs := ScanRange(target, start, end, probe);
    PermutationLength(rs, launched);
    ScanRangeElements(target, start, end, probe);
    assert DistinctPorts(launched);
    PermutationKeepsDistinct(launched, rs);
  }

  /** Results come back in arrival order, not port order: when every receive
      takes the most recently launched pending probe, ports come back in
      descending order. */
  lemma ArrivalOrderNotPortOrder(target: string, probe: Probe)
    requires forall s: nat, n: nat :: n > 0 ==> probe.pick(s, n) == n - 1
    ensures var rs := ScanRange(target, 1, 2, probe);
      |rs| == 2 && rs[0].port == 2 && rs[1].port == 1
  {
    var launched := Launch(target, 1, 2, probe);
    assert launched[0].port == 1 && launched[1].port == 2;
    var rest := launched[..1] + launched[2..];
    assert rest == [launched[0]];
    var tail := FanIn(rest, probe.pick, 1);
    assert tail == [launched[0]] + FanIn([], probe.pick, 2);
  }
}

=== FILE: scenarios.dfy ===
/**
 Concrete runs of the scheduler that show the consequences of how the code
 is written: what the single-flight guard does and does not cover, the
 store/registry states a partial failure leaves, and what `StopAll` leaves.
 */
module Scenarios {
  import opened Errors
  import opened JobStore
  import opened GoInt
  import opened Scheduler
  import opened System
  import Scanner
  import Persist
  import SchedulerProps

  lemma RunCons(m: Manager, e: Event, es: seq<Event>)
    requires Enabled(m, e) && RunEnabled(Apply(m, e), es)
    ensures RunEnabled(m, [e] + es) && Run(m, [e] + es) == Run(Apply(m, e), es)
  {
    assert ([e] + es)[1..] == es;
  }

  const Fresh: Manager := NewManager(map[], [])

  /** `CreateJob("h", 1, 1, 1s, active)` with id 1. */
  const CreateActive: Event := CreateJobCall("h", 1, 1, Second, true, DbOk, 1)

  /** The row that call stores. */
  const Row1: JobRow := JobRow(1, "h", 1, 1, 1, 1)

  /** After `CreateActive`: row 1 stored and its runner launched. */
  const Created: Manager := Manager(map[1 := Row1], [], map[1 := 0], [NewRunner(Row1)], multiset{}, false)

  lemma CreateActiveStep()
    ensures Enabled(Fresh, CreateActive) && Apply(Fresh, CreateActive) == Created
  {
    assert WholeSeconds(Second) == 1;
  }

  /** After the initial run of runner 0: its first sweep is in flight. */
  const Sweeping: Manager := Created.(runners := [Runner(Row1, false, true, InitialSweep)], sweeps := multiset{0})

  lemma InitialRunStep()
    ensures Enabled(Created, InitialRun(0)) && Apply(Created, InitialRun(0)) == Sweeping
  {
  }

  // --- Stop and start while a sweep is in flight

  /** After a stop of job 1 while its sweep is in flight. */
  const StoppedMidSweep: Manager :=
    Sweeping.(jobs := map[1 := Row1.(active := 0)], registry := map[],
              runners := [Runner(Row1, true, true, InitialSweep)])

  /** After a start of job 1 again: a second runner, the first one's sweep
      still in flight. */
  const Restarted: Manager :=
    StoppedMidSweep.(jobs := map[1 := Row1], registry := map[1 := 1],
                     runners := StoppedMidSweep.runners + [NewRunner(Row1)])

  /** After the second runner's initial run. */
  const TwoInFlight: Manager :=
    Restarted.(runners := [Runner(Row1, true, true, InitialSweep), Runner(Row1, false, true, InitialSweep)],
               sweeps := multiset{0, 1})

  lemma StopStep()
    ensures Enabled(Sweeping, StopJobCall(1, DbOk)) && Apply(Sweeping, StopJobCall(1, DbOk)) == StoppedMidSweep
  {
  }

  lemma StartStep()
    ensures Enabled(StoppedMidSweep, StartJobCall(1, DbOk, DbOk))
    ensures Apply(StoppedMidSweep, StartJobCall(1, DbOk, DbOk)) == Restarted
  {
    assert StoppedMidSweep.jobs[1].(active := 1) == Row1;
  }

  lemma SecondInitialRunStep()
    ensures Enabled(Restarted, InitialRun(1)) && Apply(Restarted, InitialRun(1)) == TwoInFlight
  {
  }

  /** Stop and start while the first runner's initial sweep is in flight: the
      new runner's initial sweep starts at once, so job 1 has two sweeps in
      flight, one per runner. The guard is per runner, not per job id. */
  lemma TwoSweepsForOneJob()
    ensures var es := [CreateActive, InitialRun(0), StopJobCall(1, DbOk), StartJobCall(1, DbOk, DbOk), InitialRun(1)];
      && RunEnabled(Fresh, es)
      && Run(Fresh, es).sweeps == multiset{0, 1}
      && |Run(Fresh, es).runners| == 2
      && Run(Fresh, es).runners[0].job.id == 1 && Run(Fresh, es).runners[1].job.id == 1
  {
    CreateActiveStep();
    InitialRunStep();
    StopStep();
    StartStep();
    SecondInitialRunStep();
    RunCons(Restarted, InitialRun(1), []);
    RunCons(StoppedMidSweep, StartJobCall(1, DbOk, DbOk), [InitialRun(1)]);
    RunCons(Sweeping, StopJobCall(1, DbOk), [StartJobCall(1, DbOk, DbOk), InitialRun(1)]);
    RunCons(Created, InitialRun(0), [StopJobCall(1, DbOk), StartJobCall(1, DbOk, DbOk), InitialRun(1)]);
    RunCons(Fresh, CreateActive, [InitialRun(0), StopJobCall(1, DbOk), StartJobCall(1, DbOk, DbOk), InitialRun(1)]);
  }

  // --- Partial failures

  /** A stop whose store update fails leaves the row active with no runner,
      and `StartJobByID` alone cannot repair it: it answers "job already
      active". A stop whose update succeeds, followed by `StartJobByID`,
      starts it again, and so does a new `LoadAndStartAll`. */
  lemma ActiveRowWithoutRunner()
    ensures var m := StopJob(Created, 1, DbFail(ErrDb(0))).0;
      && m.jobs[1].active == 1 && 1 !in m.registry
      && StartJobByID(m, 1, DbOk, DbOk) == (m, Err(AlreadyActive))
      && 1 in LoadAndStartAll(m, DbOk, [Row1]).0.registry
      && var restarted := StartJobByID(StopJob(m, 1, DbOk).0, 1, DbOk, DbOk);
      && restarted.1 == Ok && 1 in restarted.0.registry
  {
    assert [Row1][0].id == 1;
  }

  /** `StopAll` cancels every runner but leaves the registry as it was, so a
      later `LoadAndStartAll` refuses every row already registered and starts
      nothing, yet reports success. */
  lemma StopAllLeavesRegistry()
    ensures var m := StopAll(Created);
      && m.registry == Created.registry && 1 in m.registry
      && LoadAndStartAll(m, DbOk, [Row1]) == (m, Ok)
  {
    var m := StopAll(Created);
    assert RowIds([Row1]) <= m.registry.Keys;
    SchedulerProps.StartEachRegisteredIsNoop(m, [Row1]);
  }

  // --- The wait in StopAll

  /** After the initial sweep ends. */
  function Idle(probe: Scanner.Probe, writes: Persist.Writes): Manager {
    Sweeping.(scans := SweepAndSave([], Row1, probe, writes), runners := [Runner(Row1, false, false, Looping)],
              sweeps := multiset{})
  }

  /** After a tick starts a sweep in its own goroutine. */
  function TickSweeping(probe: Scanner.Probe, writes: Persist.Writes): Manager {
    Idle(probe, writes).(runners := [Runner(Row1, false, true, Looping)], sweeps := multiset{0})
  }

  /** After `StopAll` cancels the runner. */
  function Cancelled(probe: Scanner.Probe, writes: Persist.Writes): Manager {
    TickSweeping(probe, writes).(runners := [Runner(Row1, true, true, Looping)], stopped := true)
  }

  /** After the loop returns. */
  function LoopGone(probe: Scanner.Probe, writes: Persist.Writes): Manager {
    Cancelled(probe, writes).(runners := [Runner(Row1, true, true, Exited)])
  }

  lemma SweepEndsStep(probe: Scanner.Probe, writes: Persist.Writes)
    ensures Enabled(Sweeping, SweepEnds(0, probe, writes))
    ensures Apply(Sweeping, SweepEnds(0, probe, writes)) == Idle(probe, writes)
  {
  }

  lemma TickStep(probe: Scanner.Probe, writes: Persist.Writes)
    ensures Enabled(Idle(probe, writes), TickFires(0))
    ensures Apply(Idle(probe, writes), TickFires(0)) == TickSweeping(probe, writes)
  {
  }

  lemma StopAllStep(probe: Scanner.Probe, writes: Persist.Writes)
    ensures Enabled(TickSweeping(probe, writes), StopAllCall)
    ensures Apply(TickSweeping(probe, writes), StopAllCall) == Cancelled(probe, writes)
  {
    var m := TickSweeping(probe, writes);
    assert 0 in m.registry.Values by { assert m.registry[1] == 0; }
  }

  lemma LoopExitsStep(probe: Scanner.Probe, writes: Persist.Writes)
    ensures Enabled(Cancelled(probe, writes), LoopExits(0))
    ensures Apply(Cancelled(probe, writes), LoopExits(0)) == LoopGone(probe, writes)
  {
  }

  /** The steps after the initial run, up to the loop's exit. */
  lemma AfterInitialRun(probe: Scanner.Probe, writes: Persist.Writes)
    ensures var es := [SweepEnds(0, probe, writes), TickFires(0), StopAllCall, LoopExits(0)];
      RunEnabled(Sweeping, es) && Run(Sweeping, es) == LoopGone(probe, writes)
  {
    SweepEndsStep(probe, writes);
    TickStep(probe, writes);
    StopAllStep(probe, writes);
    LoopExitsStep(probe, writes);
    RunCons(Cancelled(probe, writes), LoopExits(0), []);
    RunCons(TickSweeping(probe, writes), StopAllCall, [LoopExits(0)]);
    RunCons(Idle(probe, writes), TickFires(0), [StopAllCall, LoopExits(0)]);
    RunCons(Sweeping, SweepEnds(0, probe, writes), [TickFires(0), StopAllCall, LoopExits(0)]);
  }

  /** `StopAll`'s wait can return while a sweep is still in flight: the wait
      group counts runner loops, and a sweep started by a tick runs in a
      goroutine of its own. */
  lemma WaitReturnsWithSweepInFlight(probe: Scanner.Probe, writes: Persist.Writes)
    ensures var es := [CreateActive, InitialRun(0), SweepEnds(0, probe, writes), TickFires(0), StopAllCall, LoopExits(0)];
      && RunEnabled(Fresh, es)
      && LoopsExited(Run(Fresh, es))
      && 0 in Run(Fresh, es).sweeps
  {
    var tail := [SweepEnds(0, probe, writes), TickFires(0), StopAllCall, LoopExits(0)];
    CreateActiveStep();
    InitialRunStep();
    AfterInitialRun(probe, writes);
    RunCons(Created, InitialRun(0), tail);
    RunCons(Fresh, CreateActive, [InitialRun(0)] + tail);
    assert [CreateActive] + ([InitialRun(0)] + tail)
        == [CreateActive, InitialRun(0), SweepEnds(0, probe, writes), TickFires(0), StopAllCall, LoopExits(0)];
  }

  // --- A first sweep

  /** An active job for ports 8000..8002 is swept once as soon as it is
      created, before any tick; when the store accepts every write, that sweep
      leaves three rows, one for each port. */
  lemma CreateRunsInitialSweep(probe: Scanner.Probe, writes: Persist.Writes)
    requires writes.begin.DbOk? && writes.commit.DbOk? && forall i: nat :: writes.insertOk(i)
    ensures var m1 := Apply(Fresh, CreateJobCall("127.0.0.1", 8000, 8002, 5 * Second, true, DbOk, 1));
      && 0 < |m1.runners| && m1.runners[0].phase == Starting
      && var m2 := Apply(m1, InitialRun(0));
      && m2.sweeps == multiset{0}
      && var m3 := Apply(m2, SweepEnds(0, probe, writes));
      && |m3.scans| == 3
      && (forall p :: 8000 <= p <= 8002 ==> HasRow(m3.scans, p))
  {
    var m1 := Apply(Fresh, CreateJobCall("127.0.0.1", 8000, 8002, 5 * Second, true, DbOk, 1));
    var job := m1.runners[0].job;
    assert job.startPort == 8000 && job.endPort == 8002 && job.target == "127.0.0.1";
    var m2 := Apply(m1, InitialRun(0));
    var m3 := Apply(m2, SweepEnds(0, probe, writes));
    assert m3.scans == SweepAndSave([], job, probe, writes);
    ThreePortSweep(job, probe, writes);
  }

  lemma ThreePortSweep(job: JobRow, probe: Scanner.Probe, writes: Persist.Writes)
    requires job.startPort == 8000 && job.endPort == 8002
    requires writes.begin.DbOk? && writes.commit.DbOk? && forall i: nat :: writes.insertOk(i)
    ensures var scans := SweepAndSave([], job, probe, writes);
      |scans| == 3 && forall p :: 8000 <= p <= 8002 ==> HasRow(scans, p)
  {
    var scans := SweepAndSave([], job, probe, writes);
    assert scans[0..] == scans;
  }
}

=== FILE: scheduler.dfy ===
/**
 The recurring-scan scheduler (`scheduler.Manager` and its `jobRunner`s).

 The manager's state is a value: the two store tables, the registry
 (`m.runners` in the code: job id -> runner), every runner instance ever
 started, the multiset of runners with a sweep in flight, and whether the
 manager's own context has been cancelled (`StopAll`).

 A runner outlives its registry entry: `StopJob` cancels it and drops the
 entry at once, but its goroutine and any sweep it has in flight carry on. So
 runners are kept in an append-only sequence (an index stands for one
 `jobRunner`) and the registry maps a job id to an index.

 Each public operation is one transition. The runner goroutine is split into
 steps that interleave freely with them: the initial `executeOnce`, a tick,
 the end of a sweep, and the loop's exit on cancellation.
 */
module Scheduler {
  import opened Errors
  import opened JobStore
  import opened GoInt
  import Scanner
  import Persist

  /** Where a runner's goroutine is. */
  datatype Phase =
    | Starting      // launched; the initial executeOnce has not run yet
    | InitialSweep  // executeOnce is running the first sweep itself
    | Looping       // in the select on cancellation or the ticker
    | Exited        // the loop returned after seeing cancellation

  /** A `jobRunner`: the row it was started with (a snapshot), whether its own
      cancel func has been called, its `running` flag (true for 1), and where
      its goroutine is. */
  datatype Runner = Runner(job: JobRow, cancelled: bool, running: bool, phase: Phase)

  datatype Manager = Manager(
    jobs: Jobs,                 // the jobs table
    scans: seq<ScanRecord>,     // the scans table
    registry: map<int, nat>,    // job id -> index into runners
    runners: seq<Runner>,       // every runner ever started
    sweeps: multiset<nat>,      // runners with a sweep in flight
    stopped: bool)              // the manager's context was cancelled

  /** A manager as `NewManager` returns it, over a given jobs table. */
  function NewManager(jobs: Jobs, scans: seq<ScanRecord>): (m: Manager)
    ensures m.registry == map[] && m.runners == [] && m.sweeps == multiset{} && !m.stopped
  {
    Manager(jobs, scans, map[], [], multiset{}, false)
  }

  /** A runner's context is done once its own cancel func or the manager's
      (its parent) has been called. */
  predicate Done(m: Manager, h: nat)
    requires h < |m.runners|
  {
    m.runners[h].cancelled || m.stopped
  }

  /** The runner registered for a job id, if any. */
  function RunnerFor(m: Manager, id: int): (r: Runner)
    requires id in m.registry && m.registry[id] < |m.runners|
  {
    m.runners[m.registry[id]]
  }

  /** The store and the in-flight sweeps are as they were. */
  predicate SameStoreAndSweeps(m: Manager, m': Manager) {
    m'.jobs == m.jobs && m'.scans == m.scans && m'.sweeps == m.sweeps && m'.stopped == m.stopped
  }

  /** Only runner `h` may differ. */
  predicate OtherRunnersKept(m: Manager, m': Manager, h: nat) {
    |m'.runners| == |m.runners| && forall k :: 0 <= k < |m.runners| && k != h ==> m'.runners[k] == m.runners[k]
  }

  /** A freshly launched runner for `jr`. */
  function NewRunner(jr: JobRow): Runner {
    Runner(jr, false, false, Starting)
  }

  /** `startRunner`: refuse an id that already has a registry entry; otherwise
      register a new runner holding a snapshot of `jr` and launch it. */
  function StartRunner(m: Manager, jr: JobRow): (out: (Manager, Status))
    ensures out.1.Ok? <==> jr.id !in m.registry
    ensures out.1.Err? ==> out.1.error == AlreadyRunning(jr.id) && out.0 == m
    ensures out.1.Ok? ==>
      var m' := out.0;
      && m'.registry.Keys == m.registry.Keys + {jr.id}
      && (forall id :: id in m.registry ==> m'.registry[id] == m.registry[id])
      && m.runners < m'.runners && |m'.runners| == |m.runners| + 1
      && m'.registry[jr.id] == |m.runners|
      && m'.runners[m'.registry[jr.id]] == NewRunner(jr)
      && SameStoreAndSweeps(m, m')
  {
    if jr.id in m.registry then (m, Err(AlreadyRunning(jr.id)))
    else
      var h := |m.runners|;
      (m.(registry := m.registry[jr.id := h], runners := m.runners + [NewRunner(jr)]), Ok)
  }

  /** Whether the runner goroutine gets a ticker: `time.NewTicker` panics on a
      period that is not positive, and the period is the row's seconds
      converted to a `time.Duration`, wrapping like any `int64` product. */
  predicate TickerStarts(jr: JobRow): (ok: bool)
    ensures 0 < jr.intervalSeconds <= MaxDurationSeconds ==> ok
    ensures -MaxDurationSeconds <= jr.intervalSeconds <= 0 ==> !ok
  {
    MinInt64 <= jr.intervalSeconds <= MaxInt64 && DurationOfSeconds(jr.intervalSeconds) > 0
  }

  /** `executeOnce`, up to the start of the initial sweep: take the flag by
      compare-and-swap (a failed swap returns nil and runs nothing), then give
      up with an error if the context is already done (the deferred store puts
      the flag back), else start the sweep. */
  function ExecuteOnce(m: Manager, h: nat): (out: (Manager, Status))
    requires h < |m.runners| && m.runners[h].phase == Starting
    ensures var r := m.runners[h]; var m' := out.0;
      && (out.1.Err? <==> !r.running && Done(m, h))
      && (out.1.Err? ==> out.1.error == CancelledBeforeStart(r.job.id))
      && (m'.sweeps == if !r.running && !Done(m, h) then m.sweeps + multiset{h} else m.sweeps)
      && OtherRunnersKept(m, m', h)
      && m'.runners[h].running == (r.running || !Done(m, h))
      && m'.runners[h].phase == (if !r.running && !Done(m, h) then InitialSweep else Looping)
      && m'.runners[h].job == r.job && m'.runners[h].cancelled == r.cancelled
      && m'.registry == m.registry && m'.jobs == m.jobs && m'.scans == m.scans && m'.stopped == m.stopped
  {
    var r := m.runners[h];
    if r.running then
      (m.(runners := m.runners[h := r.(phase := Looping)]), Ok)
    else if Done(m, h) then
      (m.(runners := m.runners[h := r.(phase := Looping)]), Err(CancelledBeforeStart(r.job.id)))
    else
      (m.(runners := m.runners[h := r.(running := true, phase := InitialSweep)],
          sweeps := m.sweeps + multiset{h}), Ok)
  }

  /** A tick of the loop: start a sweep only if the flag goes from 0 to 1 by
      compare-and-swap; a tick that finds the flag held is dropped, not queued.
      (Go's select picks at random among ready cases, so a tick may still be
      taken after cancellation, as long as the loop has not exited.) */
  function Tick(m: Manager, h: nat): (m': Manager)
    requires h < |m.runners| && m.runners[h].phase == Looping
    ensures m.runners[h].running ==> m' == m
    ensures !m.runners[h].running ==>
      && m'.sweeps == m.sweeps + multiset{h}
      && OtherRunnersKept(m, m', h)
      && m'.runners[h] == m.runners[h].(running := true)
      && m'.registry == m.registry && m'.jobs == m.jobs && m'.scans == m.scans && m'.stopped == m.stopped
  {
    var r := m.runners[h];
    if r.running then m
    else m.(runners := m.runners[h := r.(running := true)], sweeps := m.sweeps + multiset{h})
  }

  /** The `scans` table after one sweep of `job`'s snapshot: probe its range
      and write the results. The rows added are for the snapshot's target and
      range, no two for the same port; when the store accepts every write (or
      the transaction never opened, so the rows were written one by one), every
      port of the range gets its row. */
  function SweepAndSave(scans: seq<ScanRecord>, job: JobRow, probe: Scanner.Probe, writes: Persist.Writes)
    : (after: seq<ScanRecord>)
    ensures scans <= after
    ensures |after| <= |scans| + Scanner.Width(job.startPort, job.endPort)
    ensures forall k :: |scans| <= k < |after| ==>
              after[k].target == job.target && job.startPort <= after[k].port <= job.endPort
    ensures DistinctRows(after[|scans|..])
    ensures (writes.begin.DbFail? || writes.commit.DbOk?) && (forall i: nat :: writes.insertOk(i)) ==>
              && |after| == |scans| + Scanner.Width(job.startPort, job.endPort)
              && forall p :: job.startPort <= p <= job.endPort ==> HasRow(after[|scans|..], p)
  {
    var results := Scanner.ScanRange(job.target, job.startPort, job.endPort, probe);
    SweepRowsComeFromRange(scans, job, results, writes, probe);
    SweepRowsDistinct(scans, job, results, writes, probe);
    SweepRowsCoverRange(scans, job, results, writes, probe);
    Persist.SaveSweep(scans, job.target, results, writes).0
  }

  lemma SweepRowsComeFromRange(scans: seq<ScanRecord>, job: JobRow, results: seq<Scanner.PortResult>,
                               writes: Persist.Writes, probe: Scanner.Probe)
    requires results == Scanner.ScanRange(job.target, job.startPort, job.endPort, probe)
    ensures var after := Persist.SaveSweep(scans, job.target, results, writes).0;
      && |after| <= |scans| + Scanner.Width(job.startPort, job.endPort)
      && (forall k :: |scans| <= k < |after| ==>
            after[k].target == job.target && job.startPort <= after[k].port <= job.endPort)
  {
    Scanner.ScanRangeIsPermutationOfRange(job.target, job.startPort, job.endPort, probe);
    var written := Persist.InsertEach(job.target, results, writes.insertOk);
    var after := Persist.SaveSweep(scans, job.target, results, writes).0;
    forall k | |scans| <= k < |after|
      ensures after[k].target == job.target && job.startPort <= after[k].port <= job.endPort
    {
      var w := after[k];
      assert w == written[k - |scans|];
      assert w in written;
      Persist.InsertEachOnlySucceeded(job.target, results, writes.insertOk, w);
    }
  }

  lemma SweepRowsDistinct(scans: seq<ScanRecord>, job: JobRow, results: seq<Scanner.PortResult>,
                          writes: Persist.Writes, probe: Scanner.Probe)
    requires results == Scanner.ScanRange(job.target, job.startPort, job.endPort, probe)
    ensures DistinctRows(Persist.SaveSweep(scans, job.target, results, writes).0[|scans|..])
  {
    assert Scanner.DistinctPorts(results) by {
      Scanner.ScanRangeIsPermutationOfRange(job.target, job.startPort, job.endPort, probe);
    }
    Persist.SaveSweepKeepsDistinct(scans, job.target, results, writes);
  }

  lemma SweepRowsCoverRange(scans: seq<ScanRecord>, job: JobRow, results: seq<Scanner.PortResult>,
                            writes: Persist.Writes, probe: Scanner.Probe)
    requires results == Scanner.ScanRange(job.target, job.startPort, job.endPort, probe)
    ensures var after := Persist.SaveSweep(scans, job.target, results, writes).0;
      (writes.begin.DbFail? || writes.commit.DbOk?) && (forall i: nat :: writes.insertOk(i)) ==>
      && |after| == |scans| + Scanner.Width(job.startPort, job.endPort)
      && forall p :: job.startPort <= p <= job.endPort ==> HasRow(after[|scans|..], p)
  {
    if (writes.begin.DbFail? || writes.commit.DbOk?) && (forall i: nat :: writes.insertOk(i)) {
      Scanner.ScanRangeIsPermutationOfRange(job.target, job.startPort, job.endPort, probe);
      var after := Persist.SaveSweep(scans, job.target, results, writes).0;
      var added := Persist.Records(job.target, results);
      assert after == scans + added;
      assert after[|scans|..] == added;
      forall p | job.startPort <= p <= job.endPort ensures HasRow(added, p) {
        assert Scanner.HasPort(results, p);
        var k :| 0 <= k < |results| && results[k].port == p;
        assert added[k].port == p;
      }
    }
  }

  /** The end of a sweep of runner `h` (`executeScanAndSave` and the deferred
      flag release): the snapshot's range is probed and written, and the flag
      goes back to 0. The sweep's error is only printed. */
  function FinishSweep(m: Manager, h: nat, probe: Scanner.Probe, writes: Persist.Writes): (m': Manager)
    requires h in m.sweeps && h < |m.runners|
    ensures m'.sweeps == m.sweeps - multiset{h}
    ensures OtherRunnersKept(m, m', h)
    ensures !m'.runners[h].running
    ensures m'.runners[h].phase == (if m.runners[h].phase == InitialSweep then Looping else m.runners[h].phase)
    ensures m'.runners[h].job == m.runners[h].job && m'.runners[h].cancelled == m.runners[h].cancelled
    ensures m'.scans == SweepAndSave(m.scans, m.runners[h].job, probe, writes)
    ensures m'.registry == m.registry && m'.jobs == m.jobs && m'.stopped == m.stopped
  {
    var r := m.runners[h];
    var r' := r.(running := false, phase := if r.phase == InitialSweep then Looping else r.phase);
    m.(scans := SweepAndSave(m.scans, r.job, probe, writes), runners := m.runners[h := r'],
       sweeps := m.sweeps - multiset{h})
  }

  /** The loop sees its context done and returns (`wg.Done`). */
  function ExitLoop(m: Manager, h: nat): (m': Manager)
    requires h < |m.runners| && m.runners[h].phase == Looping && Done(m, h)
    ensures OtherRunnersKept(m, m', h) && m'.registry == m.registry && SameStoreAndSweeps(m, m')
    ensures m'.runners[h] == m.runners[h].(phase := Exited)
  {
    m.(runners := m.runners[h := m.runners[h].(phase := Exited)])
  }

  /** `StopAll`, up to the wait: cancel the manager's context and call every
      registered runner's cancel func. The registry entries stay, and sweeps in
      flight are not interrupted. */
  function StopAll(m: Manager): (m': Manager)
    ensures m'.stopped
    ensures forall h :: 0 <= h < |m'.runners| ==> Done(m', h)
    ensures m'.registry == m.registry && m'.jobs == m.jobs && m'.scans == m.scans && m'.sweeps == m.sweeps
    ensures |m'.runners| == |m.runners|
    ensures forall h :: 0 <= h < |m.runners| ==>
      && m'.runners[h].job == m.runners[h].job
      && m'.runners[h].running == m.runners[h].running
      && m'.runners[h].phase == m.runners[h].phase
      && (m'.runners[h].cancelled <==> m.runners[h].cancelled || h in m.registry.Values)
  {
    var rs := seq(|m.runners|, h requires 0 <= h < |m.runners| =>
      if h in m.registry.Values then m.runners[h].(cancelled := true) else m.runners[h]);
    m.(stopped := true, runners := rs)
  }

  /** What `StopAll`'s `wg.Wait()` waits for: every runner loop has returned.
      Sweeps started by ticks run in goroutines of their own and are not
      counted. */
  predicate LoopsExited(m: Manager) {
    forall h :: 0 <= h < |m.runners| ==> m.runners[h].phase == Exited
  }

  /** `StopJob`: cancel and unregister the runner if there is one (a missing
      runner is not an error), then always set the row inactive; the only
      error returned is that update's. */
  function StopJob(m: Manager, id: int, update: DbOutcome): (out: (Manager, Status))
    ensures var m' := out.0;
      && out.1 == StatusOf(update)
      && id !in m'.registry
      && m'.registry == m.registry - {id}
      && m'.jobs == (if update.DbOk? then SetActive(m.jobs, id, 0) else m.jobs)
      && |m'.runners| == |m.runners|
      && (forall h :: 0 <= h < |m.runners| ==>
            m'.runners[h] == if id in m.registry && h == m.registry[id]
                             then m.runners[h].(cancelled := true) else m.runners[h])
      && m'.scans == m.scans && m'.sweeps == m.sweeps && m'.stopped == m.stopped
  {
    var m1 :=
      if id in m.registry then
        var h := m.registry[id];
        m.(registry := m.registry - {id},
           runners := if h < |m.runners| then m.runners[h := m.runners[h].(cancelled := true)] else m.runners)
      else m;
    if update.DbFail? then (m1, StatusOf(update))
    else (m1.(jobs := SetActive(m1.jobs, id, 0)), Ok)
  }

  /** `StartJobByID`: read the row; refuse an active one with "job already
      active" and no write; otherwise set it active in the store first and then
      start its runner, returning the runner's error. */
  function StartJobByID(m: Manager, id: int, get: DbOutcome, update: DbOutcome): (out: (Manager, Status))
    ensures get.DbFail? ==> out == (m, StatusOf(get))
    ensures get.DbOk? && id !in m.jobs ==> out == (m, Err(Db(ErrNoRows)))
    ensures out.1 == Err(AlreadyActive) <==> get.DbOk? && id in m.jobs && m.jobs[id].active == 1
    ensures out.1 == Err(AlreadyActive) ==> out.0 == m
    ensures get.DbOk? && id in m.jobs && m.jobs[id].active != 1 && update.DbFail? ==> out == (m, StatusOf(update))
    ensures get.DbOk? && id in m.jobs && m.jobs[id].active != 1 && update.DbOk? ==>
      var m' := out.0;
      && m'.jobs == SetActive(m.jobs, id, 1)
      && (out.1.Ok? <==> id !in m.registry)
      && (out.1.Ok? ==> id in m'.registry && m'.registry[id] < |m'.runners|
                        && RunnerFor(m', id) == NewRunner(m.jobs[id].(active := 1)))
      && (out.1.Err? ==> out.1 == Err(AlreadyRunning(id)) && m'.registry == m.registry && m'.runners == m.runners)
    ensures var m' := out.0;
      && m'.stopped == m.stopped && m'.scans == m.scans && m'.sweeps == m.sweeps
      && m.runners <= m'.runners && |m'.runners| <= |m.runners| + 1
      && m'.registry.Keys <= m.registry.Keys + {id}
      && (forall k :: k in m.registry ==> k in m'.registry && m'.registry[k] == m.registry[k])
      && (forall k :: k in m.jobs && k != id ==> k in m'.jobs && m'.jobs[k] == m.jobs[k])
  {
    if get.DbFail? then (m, StatusOf(get))
    else if id !in m.jobs then (m, Err(Db(ErrNoRows)))
    else if m.jobs[id].active == 1 then (m, Err(AlreadyActive))
    else if update.DbFail? then (m, StatusOf(update))
    else
      var jr := m.jobs[id].(active := 1);
      StartRunner(m.(jobs := SetActive(m.jobs, id, 1)), jr)
  }

  /** `DeleteJob`: stop the job, ignoring the stop's error, then delete the
      row; only the delete's error is returned. */
  function DeleteJob(m: Manager, id: int, update: DbOutcome, delete: DbOutcome): (out: (Manager, Status))
    ensures out.1 == StatusOf(delete)
    ensures id !in out.0.registry && out.0.registry == m.registry - {id}
    ensures delete.DbOk? ==> id !in out.0.jobs
    ensures out.0.jobs.Keys == (if delete.DbOk? then m.jobs.Keys - {id} else m.jobs.Keys)
    ensures out.0.sweeps == m.sweeps && out.0.scans == m.scans && out.0.stopped == m.stopped
    ensures forall k :: k in m.jobs && k != id ==> k in out.0.jobs && out.0.jobs[k] == m.jobs[k]
    ensures delete.DbFail? ==> out.0.jobs == (if update.DbOk? then SetActive(m.jobs, id, 0) else m.jobs)
    ensures |out.0.runners| == |m.runners|
    ensures forall h :: 0 <= h < |m.runners| ==>
      out.0.runners[h] == if id in m.registry && h == m.registry[id]
                          then m.runners[h].(cancelled := true) else m.runners[h]
  {
    var stopped := StopJob(m, id, update).0;
    if delete.DbFail? then (stopped, StatusOf(delete))
    else (stopped.(jobs := DeleteRow(stopped.jobs, id)), Ok)
  }

  /** The row `CreateJob` inserts. */
  function NewRow(id: int, target: string, startPort: int, endPort: int, interval: Int64, active: bool): (jr: JobRow)
    ensures jr.id == id && jr.target == target && jr.startPort == startPort && jr.endPort == endPort
    ensures jr.active == (if active then 1 else 0)
    ensures 0 <= interval ==> 0 <= jr.intervalSeconds * Second <= interval < jr.intervalSeconds * Second + Second
    ensures interval < 0 ==> jr.intervalSeconds * Second - Second < interval <= jr.intervalSeconds * Second <= 0
  {
    JobRow(id, target, startPort, endPort, WholeSeconds(interval), if active then 1 else 0)
  }

  /** `CreateJob`: insert the row (the store assigns `newId`); a failed insert
      returns the error and starts nothing. On success the id is returned, and
      an active job also gets a runner; a runner-start failure is only printed
      and does not change the return value. No field is checked here. */
  function CreateJob(m: Manager, target: string, startPort: int, endPort: int, interval: Int64, active: bool,
                     insert: DbOutcome, newId: int): (out: (Manager, Result<int>))
    ensures insert.DbFail? ==> out == (m, Failure(Db(insert.err)))
    ensures insert.DbOk? ==>
      var row := NewRow(newId, target, startPort, endPort, interval, active);
      var m' := out.0;
      && out.1 == Success(newId)
      && m'.jobs == m.jobs[newId := row]
      && m'.scans == m.scans && m'.sweeps == m.sweeps
      && (active && newId !in m.registry ==>
            newId in m'.registry && m'.registry[newId] < |m'.runners| && RunnerFor(m', newId) == NewRunner(row)
            && m'.registry.Keys == m.registry.Keys + {newId})
      && (!active || newId in m.registry ==> m'.registry == m.registry && m'.runners == m.runners)
    ensures var m' := out.0;
      && m'.stopped == m.stopped
      && m.runners <= m'.runners && |m'.runners| <= |m.runners| + 1
      && m'.registry.Keys <= m.registry.Keys + {newId}
      && (forall k :: k in m.registry ==> k in m'.registry && m'.registry[k] == m.registry[k])
  {
    var row := NewRow(newId, target, startPort, endPort, interval, active);
    if insert.DbFail? then (m, Failure(Db(insert.err)))
    else
      var m1 := m.(jobs := m.jobs[newId := row]);
      if active then (StartRunner(m1, row).0, Success(newId)) else (m1, Success(newId))
  }

  /** The ids of a list of rows. */
  function RowIds(rows: seq<JobRow>): (ids: set<int>)
    ensures forall i :: 0 <= i < |rows| ==> rows[i].id in ids
    ensures forall id :: id in ids ==> exists i :: 0 <= i < |rows| && rows[i].id == id
  {
    set i | 0 <= i < |rows| :: rows[i].id
  }

  /** The start loop of `LoadAndStartAll`: `startRunner` once per row, in
      order, skipping (only printing) the rows it refuses. One new runner is
      launched per id not yet registered; registered ids keep their runner. */
  function StartEach(m: Manager, rows: seq<JobRow>): (m': Manager)
    ensures m'.registry.Keys == m.registry.Keys + RowIds(rows)
    ensures forall id :: id in m.registry ==> m'.registry[id] == m.registry[id]
    ensures m.runners <= m'.runners
    ensures |m'.runners| == |m.runners| + |RowIds(rows) - m.registry.Keys|
    ensures forall id :: id in m'.registry && id !in m.registry ==>
              |m.runners| <= m'.registry[id] < |m'.runners|
              && m'.runners[m'.registry[id]].job in rows
              && m'.runners[m'.registry[id]] == NewRunner(m'.runners[m'.registry[id]].job)
              && m'.runners[m'.registry[id]].job.id == id
    ensures SameStoreAndSweeps(m, m')
    decreases |rows|
  {
    if rows == [] then m
    else
      var m1 := StartRunner(m, rows[0]).0;
      var m' := StartEach(m1, rows[1..]);
      StartEachCount(m, rows, m1);
      assert forall jr :: jr in rows[1..] ==> jr in rows;
      m'
  }

  lemma RowIdsCons(rows: seq<JobRow>)
    requires rows != []
    ensures RowIds(rows) == {rows[0].id} + RowIds(rows[1..])
  {
    forall x | x in RowIds(rows) ensures x in {rows[0].id} + RowIds(rows[1..]) {
      var i :| 0 <= i < |rows| && rows[i].id == x;
      if i > 0 { assert rows[1..][i - 1] == rows[i]; }
    }
  }

  lemma NewIdsStep(ids: set<int>, rest: set<int>, known: set<int>, id: int)
    requires ids == {id} + rest
    ensures id in known ==> ids - known == rest - known
    ensures id !in known ==> ids - known == {id} + (rest - (known + {id}))
    ensures id !in known ==> |ids - known| == 1 + |rest - (known + {id})|
  {
    if id !in known {
      assert id !in rest - (known + {id});
    }
  }

  lemma StartEachCount(m: Manager, rows: seq<JobRow>, m1: Manager)
    requires rows != [] && m1 == StartRunner(m, rows[0]).0
    ensures m.registry.Keys + RowIds(rows) == m1.registry.Keys + RowIds(rows[1..])
    ensures |m1.runners| + |RowIds(rows[1..]) - m1.registry.Keys| == |m.runners| + |RowIds(rows) - m.registry.Keys|
  {
    RowIdsCons(rows);
    NewIdsStep(RowIds(rows), RowIds(rows[1..]), m.registry.Keys, rows[0].id);
  }

  /** `LoadAndStartAll`: select the active rows and start a runner for each,
      skipping per-row failures. Only a failing select is an error, and
      `sql.ErrNoRows` from it counts as success. */
  function LoadAndStartAll(m: Manager, select: DbOutcome, rows: seq<JobRow>): (out: (Manager, Status))
    ensures out.1.Err? <==> select.DbFail? && select.err != ErrNoRows
    ensures out.1.Err? ==> out.1 == StatusOf(select)
    ensures select.DbFail? ==> out.0 == m
    ensures select.DbOk? ==> out.0 == StartEach(m, rows)
  {
    if select.DbFail? then
      (m, if select.err == ErrNoRows then Ok else StatusOf(select))
    else
      (StartEach(m, rows), Ok)
  }
}

=== FILE: scheduler_props.dfy ===
/**
 Properties relating several calls of the manager: repeated calls, and a call
 followed by its counterpart.
 */
module SchedulerProps {
  import opened Errors
  import opened JobStore
  import opened Scheduler
  import System
  import Scanner
  import Persist

  /** A second `startRunner` for an id that was just started is refused and
      changes nothing. */
  lemma StartRunnerTwiceRefused(m: Manager, jr: JobRow, again: JobRow)
    requires jr.id !in m.registry && again.id == jr.id
    ensures var m1 := StartRunner(m, jr).0;
      StartRunner(m1, again) == (m1, Err(AlreadyRunning(jr.id)))
  {
  }

  /** `StopJob` is idempotent: a second stop of the same id finds no runner,
      returns the update's outcome again and leaves the state as the first
      stop left it. */
  lemma StopJobIdempotent(m: Manager, id: int, update: DbOutcome)
    ensures var first := StopJob(m, id, update);
      StopJob(first.0, id, update) == first
  {
    var first := StopJob(m, id, update);
    var second := StopJob(first.0, id, update);
    assert id !in first.0.registry;
    assert second.0.jobs == first.0.jobs;
  }

  /** Starting a job that is already active is refused without touching the
      store or the registry; in particular a second successful start is
      always refused. */
  lemma StartJobTwiceRefused(m: Manager, id: int, get: DbOutcome, update: DbOutcome)
    requires get.DbOk? && id in m.jobs && m.jobs[id].active != 1 && update.DbOk?
    ensures var m1 := StartJobByID(m, id, get, update).0;
      StartJobByID(m1, id, DbOk, DbOk) == (m1, Err(AlreadyActive))
  {
    var m1 := StartJobByID(m, id, get, update).0;
    assert m1.jobs[id].active == 1;
  }

  /** Stopping a job and starting it again gives it a new runner holding the
      current row, when the store answers both calls. */
  lemma StopThenStartRestarts(m: Manager, id: int)
    requires System.Inv(m) && id in m.jobs
    ensures var m1 := StopJob(m, id, DbOk).0;
      var out := StartJobByID(m1, id, DbOk, DbOk);
      && out.1 == Ok
      && id in out.0.registry && out.0.registry[id] == |m.runners|
      && out.0.runners[|m.runners|] == NewRunner(m.jobs[id].(active := 1))
  {
    var m1 := StopJob(m, id, DbOk).0;
    assert m1.jobs[id].active == 0;
    assert id !in m1.registry;
    assert m1.jobs[id].(active := 1) == m.jobs[id].(active := 1);
  }

  /** Once every selected id has a runner, starting the selection again is a
      no-op: each row is refused and skipped. */
  lemma {:induction false} StartEachRegisteredIsNoop(m: Manager, rows: seq<JobRow>)
    requires RowIds(rows) <= m.registry.Keys
    ensures StartEach(m, rows) == m
    decreases |rows|
  {
    if rows != [] {
      assert rows[0].id in RowIds(rows);
      assert StartRunner(m, rows[0]).0 == m;
      assert RowIds(rows[1..]) <= RowIds(rows) by {
        forall x | x in RowIds(rows[1..]) ensures x in RowIds(rows) {
          var i :| 0 <= i < |rows[1..]| && rows[1..][i].id == x;
          assert rows[i + 1].id == x;
        }
      }
      StartEachRegisteredIsNoop(m, rows[1..]);
    }
  }

  /** `LoadAndStartAll` is idempotent: a second load of the same rows starts
      nothing new and succeeds. */
  lemma LoadAndStartAllIdempotent(m: Manager, rows: seq<JobRow>)
    ensures var first := LoadAndStartAll(m, DbOk, rows).0;
      LoadAndStartAll(first, DbOk, rows) == (first, Ok)
  {
    var first := LoadAndStartAll(m, DbOk, rows).0;
    StartEachRegisteredIsNoop(first, rows);
  }

  /** A runner started after `StopAll` inherits the cancelled context: its
      initial run reports "cancelled before start" and starts no sweep. */
  lemma StartAfterStopAllNeverSweeps(m: Manager, jr: JobRow)
    requires jr.id !in m.registry
    ensures var m1 := StartRunner(StopAll(m), jr).0;
      var out := ExecuteOnce(m1, |m.runners|);
      && out.1 == Err(CancelledBeforeStart(jr.id))
      && out.0.sweeps == m.sweeps
  {
  }

  /** A sweep persists the snapshot taken when the runner started, whatever
      the jobs table holds by the time it runs. */
  lemma SweepUsesSnapshot(m: Manager, h: nat, probe: Scanner.Probe, writes: Persist.Writes, jobs: Jobs)
    requires h in m.sweeps && h < |m.runners|
    ensures FinishSweep(m.(jobs := jobs), h, probe, writes).scans == FinishSweep(m, h, probe, writes).scans
  {
  }
}

=== FILE: strconv.dfy ===
/**
 Decimal parsing and formatting of 64-bit integers, as `strconv.Atoi` and
 `strconv.ParseInt(s, 10, 64)` behave on a 64-bit platform: an optional `+` or
 `-`, then one or more ASCII digits, and a value that fits in `int64`.
 Anything else (empty text, spaces, underscores, a bare sign, overflow) is an
 error.
 */
module Strconv {
  import opened GoInt

  datatype Option<T> = None | Some(value: T)

  predicate IsDigit(c: char) {
    '0' <= c <= '9'
  }

  predicate AllDigits(s: string) {
    forall i :: 0 <= i < |s| ==> IsDigit(s[i])
  }

  function DigitValue(c: char): (d: nat)
    requires IsDigit(c)
    ensures d < 10
  {
    c as int - '0' as int
  }

  function DigitChar(d: nat): (c: char)
    requires d < 10
    ensures IsDigit(c) && DigitValue(c) == d
  {
    ('0' as int + d) as char
  }

  /** The number a run of digits spells, most significant first. */
  function DigitsValue(s: string): nat
    requires AllDigits(s)
  {
    if |s| == 0 then 0 else DigitsValue(s[..|s| - 1]) * 10 + DigitValue(s[|s| - 1])
  }

  /** The digits after an optional leading sign. */
  function Unsigned(s: string): string {
    if |s| > 0 && (s[0] == '-' || s[0] == '+') then s[1..] else s
  }

  /** The value of a sign and digits, before the range check. */
  function SignedValue(s: string): int
    requires AllDigits(Unsigned(s))
  {
    var mag: int := DigitsValue(Unsigned(s));
    if |s| > 0 && s[0] == '-' then -mag else mag
  }

  /** `strconv.ParseInt(s, 10, 64)`; `strconv.Atoi` is the same on 64-bit Go. */
  function ParseInt(s: string): (r: Option<Int64>)
    ensures r.Some? <==> |Unsigned(s)| > 0 && AllDigits(Unsigned(s)) && MinInt64 <= SignedValue(s) <= MaxInt64
    ensures r.Some? ==> r.value == SignedValue(s)
  {
    var body := Unsigned(s);
    if |body| == 0 || !AllDigits(body) then None
    else
      var v := SignedValue(s);
      if MinInt64 <= v <= MaxInt64 then Some(v) else None
  }

  /** Decimal digits of a natural number, without leading zeros. */
  function Digits(n: nat): (s: string)
    ensures |s| > 0 && AllDigits(s)
    ensures s[0] != '-' && s[0] != '+'
  {
    if n < 10 then [DigitChar(n)] else Digits(n / 10) + [DigitChar(n % 10)]
  }

  /** `strconv.FormatInt(n, 10)`: how Go prints an integer. */
  function FormatInt(n: int): (s: string)
    ensures |s| > 0
  {
    if n < 0 then "-" + Digits(-n) else Digits(n)
  }

  lemma {:induction false} DigitsValueOfDigits(n: nat)
    ensures DigitsValue(Digits(n)) == n
  {
    if n >= 10 {
      var s := Digits(n);
      assert s[..|s| - 1] == Digits(n / 10);
      DigitsValueOfDigits(n / 10);
    }
  }

  /** Printing an `int64` and parsing the text back gives the same number. */
  lemma ParseFormatRoundTrip(n: Int64)
    ensures ParseInt(FormatInt(n)) == Some(n)
  {
    if n < 0 {
      var s := FormatInt(n);
      var k: int := n;
      var m: nat := -k;
      assert Unsigned(s) == Digits(m);
      DigitsValueOfDigits(m);
    } else {
      assert Unsigned(FormatInt(n)) == Digits(n);
      DigitsValueOfDigits(n);
    }
  }

  /** Some texts the parser refuses: empty, a bare sign, a non-digit, a space. */
  lemma ParseIntRejects()
    ensures ParseInt("") == None
    ensures ParseInt("-") == None
    ensures ParseInt("12a") == None
    ensures ParseInt(" 7") == None
  {
    assert !IsDigit("12a"[2]);
    assert !IsDigit(" 7"[0]);
  }
}

=== FILE: system.dfy ===
/**
 The scheduler as a transition system: every public call and every step of
 every runner goroutine is an `Event`, and any interleaving of enabled events
 is a run. The invariant `Inv` holds in every state a run reaches; its core is
 the single-flight rule: at most one sweep in flight per runner, exactly when
 that runner's flag is 1.
 */
module System {
  import opened Errors
  import opened JobStore
  import opened GoInt
  import opened Scheduler
  import Scanner
  import Persist

  datatype Event =
    | CreateJobCall(target: string, startPort: int, endPort: int, interval: Int64, active: bool,
                    insert: DbOutcome, newId: int)
    | StartJobCall(id: int, get: DbOutcome, update: DbOutcome)
    | StopJobCall(id: int, update: DbOutcome)
    | DeleteJobCall(id: int, update: DbOutcome, delete: DbOutcome)
    | LoadAndStartAllCall(select: DbOutcome, rows: seq<JobRow>)
    | StopAllCall
    | InitialRun(h: nat)
    | TickFires(h: nat)
    | SweepEnds(h: nat, probe: Scanner.Probe, writes: Persist.Writes)
    | LoopExits(h: nat)

  /** The rows a `SELECT * FROM jobs WHERE active = 1` can return: stored
      active rows, in any order. */
  predicate ActiveSelection(jobs: Jobs, rows: seq<JobRow>) {
    forall i :: 0 <= i < |rows| ==> rows[i].id in jobs && jobs[rows[i].id] == rows[i] && rows[i].active == 1
  }

  /** When an event can happen. Public calls can always be made; the store
      assigns a fresh id on insert and answers a select with stored rows; a
      runner step needs its goroutine to be at that point. */
  predicate Enabled(m: Manager, e: Event) {
    match e
    case CreateJobCall(_, _, _, _, _, _, newId) => newId !in m.jobs
    case LoadAndStartAllCall(select, rows) => select.DbOk? ==> ActiveSelection(m.jobs, rows)
    case InitialRun(h) => h < |m.runners| && m.runners[h].phase == Starting
    case TickFires(h) => h < |m.runners| && m.runners[h].phase == Looping
    case SweepEnds(h, _, _) => h in m.sweeps && h < |m.runners|
    case LoopExits(h) => h < |m.runners| && m.runners[h].phase == Looping && Done(m, h)
    case _ => true
  }

  function Apply(m: Manager, e: Event): Manager
    requires Enabled(m, e)
  {
    match e
    case CreateJobCall(target, startPort, endPort, interval, active, insert, newId) =>
      CreateJob(m, target, startPort, endPort, interval, active, insert, newId).0
    case StartJobCall(id, get, update) => StartJobByID(m, id, get, update).0
    case StopJobCall(id, update) => StopJob(m, id, update).0
    case DeleteJobCall(id, update, delete) => DeleteJob(m, id, update, delete).0
    case LoadAndStartAllCall(select, rows) => LoadAndStartAll(m, select, rows).0
    case StopAllCall => StopAll(m)
    case InitialRun(h) => ExecuteOnce(m, h).0
    case TickFires(h) => Tick(m, h)
    case SweepEnds(h, probe, writes) => FinishSweep(m, h, probe, writes)
    case LoopExits(h) => ExitLoop(m, h)
  }

  /** Every event of `es` is enabled in the state the ones before it reach. */
  predicate RunEnabled(m: Manager, es: seq<Event>)
    decreases |es|
  {
    |es| == 0 || (Enabled(m, es[0]) && RunEnabled(Apply(m, es[0]), es[1..]))
  }

  function Run(m: Manager, es: seq<Event>): Manager
    requires RunEnabled(m, es)
    decreases |es|
  {
    if |es| == 0 then m else Run(Apply(m, es[0]), es[1..])
  }

  // ---------------------------------------------------------------------
  // The invariant

  predicate RunnerPhaseOk(r: Runner) {
    && (r.phase == Starting ==> !r.running)
    && (r.phase == InitialSweep ==> r.running)
  }

  /** Every registry entry points at a runner started for that id, and only an
      id whose row is active has one. */
  predicate RegistryOk(m: Manager) {
    forall id :: id in m.registry ==>
      && m.registry[id] < |m.runners|
      && m.runners[m.registry[id]].job.id == id
      && id in m.jobs && m.jobs[id].active == 1
  }

  /** The single-flight rule: a runner has exactly one sweep in flight when its
      flag is 1 and none when it is 0. */
  predicate FlagsMatchSweeps(m: Manager) {
    && (forall h :: h in m.sweeps ==> h < |m.runners|)
    && (forall h :: 0 <= h < |m.runners| ==>
          m.sweeps[h] == (if m.runners[h].running then 1 else 0) && RunnerPhaseOk(m.runners[h]))
  }

  predicate Inv(m: Manager) {
    RegistryOk(m) && FlagsMatchSweeps(m)
  }

  /** At most one sweep in flight per runner. */
  predicate SingleFlight(m: Manager) {
    forall h :: h in m.sweeps ==> m.sweeps[h] <= 1
  }

  lemma InvImpliesSingleFlight(m: Manager)
    requires Inv(m)
    ensures SingleFlight(m)
  {
    forall h | h in m.sweeps ensures m.sweeps[h] <= 1 {
      assert h < |m.runners|;
    }
  }

  lemma NewManagerSatisfiesInv(jobs: Jobs, scans: seq<ScanRecord>)
    ensures Inv(NewManager(jobs, scans))
  {
  }

  // --- preservation, one kind of event at a time

  lemma StartRunnerKeepsInv(m: Manager, jr: JobRow)
    requires Inv(m) && jr.id in m.jobs && m.jobs[jr.id].active == 1 && jr.id == m.jobs[jr.id].id
    ensures Inv(StartRunner(m, jr).0)
  {
    var m' := StartRunner(m, jr).0;
    if jr.id !in m.registry {
      var h := |m.runners|;
      assert h !in m.sweeps;
      forall k | 0 <= k < |m'.runners|
        ensures m'.sweeps[k] == (if m'.runners[k].running then 1 else 0) && RunnerPhaseOk(m'.runners[k])
      {
        if k < h { assert m'.runners[k] == m.runners[k]; }
      }
    }
  }

  lemma {:induction false} StartEachKeepsInv(m: Manager, rows: seq<JobRow>)
    requires Inv(m) && ActiveSelection(m.jobs, rows)
    ensures Inv(StartEach(m, rows))
    decreases |rows|
  {
    if rows != [] {
      var m1 := StartRunner(m, rows[0]).0;
      StartRunnerKeepsInv(m, rows[0]);
      assert ActiveSelection(m1.jobs, rows[1..]) by {
        forall i | 0 <= i < |rows[1..]| ensures rows[1..][i] == rows[i + 1] { }
      }
      StartEachKeepsInv(m1, rows[1..]);
    }
  }

  lemma CreateJobKeepsInv(m: Manager, target: string, startPort: int, endPort: int, interval: Int64, active: bool,
                          insert: DbOutcome, newId: int)
    requires Inv(m) && newId !in m.jobs
    ensures Inv(CreateJob(m, target, startPort, endPort, interval, active, insert, newId).0)
  {
    if insert.DbOk? {
      var row := NewRow(newId, target, startPort, endPort, interval, active);
      var m1 := m.(jobs := m.jobs[newId := row]);
      assert Inv(m1);
      if active {
        StartRunnerKeepsInv(m1, row);
      }
    }
  }

  lemma StartJobKeepsInv(m: Manager, id: int, get: DbOutcome, update: DbOutcome)
    requires Inv(m)
    ensures Inv(StartJobByID(m, id, get, update).0)
  {
    if get.DbOk? && id in m.jobs && m.jobs[id].active != 1 && update.DbOk? {
      var m1 := m.(jobs := SetActive(m.jobs, id, 1));
      assert Inv(m1);
      StartRunnerKeepsInv(m1, m.jobs[id].(active := 1));
    }
  }

  lemma StopJobKeepsInv(m: Manager, id: int, update: DbOutcome)
    requires Inv(m)
    ensures Inv(StopJob(m, id, update).0)
  {
    var m' := StopJob(m, id, update).0;
    forall h | 0 <= h < |m'.runners|
      ensures m'.sweeps[h] == (if m'.runners[h].running then 1 else 0) && RunnerPhaseOk(m'.runners[h])
    {
      assert m'.runners[h].running == m.runners[h].running && m'.runners[h].phase == m.runners[h].phase;
    }
    forall k | k in m'.registry
      ensures m'.registry[k] < |m'.runners| && m'.runners[m'.registry[k]].job.id == k
    {
      assert m'.registry[k] == m.registry[k];
    }
  }

  lemma DeleteJobKeepsInv(m: Manager, id: int, update: DbOutcome, delete: DbOutcome)
    requires Inv(m)
    ensures Inv(DeleteJob(m, id, update, delete).0)
  {
    StopJobKeepsInv(m, id, update);
    var stopped := StopJob(m, id, update).0;
    var m' := DeleteJob(m, id, update, delete).0;
    assert m'.runners == stopped.runners && m'.registry == stopped.registry;
  }

  lemma StopAllKeepsInv(m: Manager)
    requires Inv(m)
    ensures Inv(StopAll(m))
  {
    var m' := StopAll(m);
    forall h | 0 <= h < |m'.runners|
      ensures m'.sweeps[h] == (if m'.runners[h].running then 1 else 0) && RunnerPhaseOk(m'.runners[h])
    {
      assert m'.runners[h].running == m.runners[h].running && m'.runners[h].phase == m.runners[h].phase;
    }
  }

  lemma ExecuteOnceKeepsInv(m: Manager, h: nat)
    requires Inv(m) && h < |m.runners| && m.runners[h].phase == Starting
    ensures Inv(ExecuteOnce(m, h).0)
  {
    var m' := ExecuteOnce(m, h).0;
    assert m.sweeps[h] == 0;
    forall k | 0 <= k < |m'.runners|
      ensures m'.sweeps[k] == (if m'.runners[k].running then 1 else 0) && RunnerPhaseOk(m'.runners[k])
    {
      if k != h { assert m'.runners[k] == m.runners[k]; }
    }
  }

  lemma TickKeepsInv(m: Manager, h: nat)
    requires Inv(m) && h < |m.runners| && m.runners[h].phase == Looping
    ensures Inv(Tick(m, h))
  {
    var m' := Tick(m, h);
    forall k | 0 <= k < |m'.runners|
      ensures m'.sweeps[k] == (if m'.runners[k].running then 1 else 0) && RunnerPhaseOk(m'.runners[k])
    {
      if k != h { assert m'.runners[k] == m.runners[k]; }
    }
  }

  lemma FinishSweepKeepsInv(m: Manager, h: nat, probe: Scanner.Probe, writes: Persist.Writes)
    requires Inv(m) && h in m.sweeps && h < |m.runners|
    ensures Inv(FinishSweep(m, h, probe, writes))
  {
    var m' := FinishSweep(m, h, probe, writes);
    assert m.runners[h].running;
    forall k | 0 <= k < |m'.runners|
      ensures m'.sweeps[k] == (if m'.runners[k].running then 1 else 0) && RunnerPhaseOk(m'.runners[k])
    {
      if k != h { assert m'.runners[k] == m.runners[k]; }
    }
    forall k | k in m'.sweeps ensures k < |m'.runners| {
      assert k in m.sweeps;
    }
  }

  lemma ExitLoopKeepsInv(m: Manager, h: nat)
    requires Inv(m) && h < |m.runners| && m.runners[h].phase == Looping && Done(m, h)
    ensures Inv(ExitLoop(m, h))
  {
    var m' := ExitLoop(m, h);
    forall k | 0 <= k < |m'.runners|
      ensures m'.sweeps[k] == (if m'.runners[k].running then 1 else 0) && RunnerPhaseOk(m'.runners[k])
    {
      if k != h { assert m'.runners[k] == m.runners[k]; }
    }
  }

  /** Every enabled event keeps the invariant. */
  lemma StepKeepsInv(m: Manager, e: Event)
    requires Inv(m) && Enabled(m, e)
    ensures Inv(Apply(m, e))
  {
    match e
    case CreateJobCall(target, startPort, endPort, interval, active, insert, newId) =>
      CreateJobKeepsInv(m, target, startPort, endPort, interval, active, insert, newId);
    case StartJobCall(id, get, update) => StartJobKeepsInv(m, id, get, update);
    case StopJobCall(id, update) => StopJobKeepsInv(m, id, update);
    case DeleteJobCall(id, update, delete) => DeleteJobKeepsInv(m, id, update, delete);
    case LoadAndStartAllCall(select, rows) =>
      if select.DbOk? { StartEachKeepsInv(m, rows); }
    case StopAllCall => StopAllKeepsInv(m);
    case InitialRun(h) => ExecuteOnceKeepsInv(m, h);
    case TickFires(h) => TickKeepsInv(m, h);
    case SweepEnds(h, probe, writes) => FinishSweepKeepsInv(m, h, probe, writes);
    case LoopExits(h) => ExitLoopKeepsInv(m, h);
  }

  /** Single flight over any interleaving: from a fresh manager, every run of
      public calls and runner steps keeps at most one sweep in flight per
      runner, the flag is 1 exactly while that sweep runs, and every registry
      entry is for an active row. */
  lemma {:induction false} RunKeepsInv(m: Manager, es: seq<Event>)
    requires Inv(m) && RunEnabled(m, es)
    ensures Inv(Run(m, es)) && SingleFlight(Run(m, es))
    decreases |es|
  {
    if |es| == 0 {
      InvImpliesSingleFlight(m);
    } else {
      StepKeepsInv(m, es[0]);
      RunKeepsInv(Apply(m, es[0]), es[1..]);
    }
  }

  /** A tick while the runner's sweep is in flight is skipped: the state does
      not change, so no second sweep is started or queued. */
  lemma TickWhileInFlightIsSkipped(m: Manager, h: nat)
    requires Inv(m) && h < |m.runners| && m.runners[h].phase == Looping && h in m.sweeps
    ensures Tick(m, h) == m
  {
  }

  /** The initial run comes before any tick: once it has started the first
      sweep, neither a tick nor the loop's exit can happen for that runner
      until the sweep ends, and the sweep's end puts the runner in its loop. */
  lemma NoTickBeforeInitialSweepEnds(m: Manager, h: nat, probe: Scanner.Probe, writes: Persist.Writes)
    requires Enabled(m, InitialRun(h)) && !m.runners[h].running && !Done(m, h)
    ensures var m1 := Apply(m, InitialRun(h));
      && !Enabled(m1, TickFires(h)) && !Enabled(m1, LoopExits(h))
      && Enabled(m1, SweepEnds(h, probe, writes))
      && Apply(m1, SweepEnds(h, probe, writes)).runners[h].phase == Looping
  {
  }
}
